=== FILE: README.md ===
# JavaScript tutorial scripts: a Dafny model of their core

This project models the behaviour-bearing parts of a set of JavaScript
tutorial scripts and proves what those scripts promise about them:

- **09-error-handling.js**: `divideNumbers`, the `ValidationError` class and
  its `toString`, `validateUser`, the `ErrorLogger` class, `retryOperation`,
  `getDataWithFallback`, the `CircuitBreaker` class and `validateInput`.
- **11-advanced-concepts.js**: the closure counter, the calculator module,
  `compose`/`pipe`, `memoize` with the memoized Fibonacci, the `Observable`
  class, the validating proxy and the resettable number generator.
- **05-classes.js**: `Vehicle`, `Car` and `ElectricCar`, `BankAccount` with
  its private balance and history, the `Logger` singleton,
  `VehicleFactory.createVehicle` and `OldCar.prototype.getInfo`.
- **07-async-await.js**: `getUserDataPromise` and the promise-based
  `retryOperation`.
- **03-functions.js**: `factorial`, `sum`, `createMultiplier`, the
  truthiness-keyed `memoize`, the counting generator and `createGreeting`.
- **10-es6-features.js**: the `highlight` tag function, `greetPerson`,
  `createUser`, `sumAll` and the destructuring swap.
- **04-objects-arrays.js**: the `fullName` getter/setter pair,
  `Person.prototype.getFullName` and `Car`'s `getInfo`.

There is one Dafny module per script, plus `JsCore` (`js_core.dfy`) for
what they share:

- JavaScript values (`JsValue`) and truthiness;
- thrown errors (`ErrorValue`), settled promises (`Outcome`) and optional
  values;
- decimal formatting of numbers in template literals.

Objects whose methods update their fields are Dafny classes with those
fields, and functions that compute values are Dafny functions. An
asynchronous operation that is invoked again and again is a function from
the invocation number to its outcome. Each `Date.now()` reading is a parameter (`now`, and `settledAt` for the reading when an operation has settled).
Delays are counted, not waited. The closure counter of
03-functions.js:108-123 is the counter of 11-advanced-concepts.js without
`reset`, so `AdvancedConcepts.Counter` models both. `sumAll` of
10-es6-features.js has the body of `sum` of 03-functions.js and is
`Functions.Sum`.

The two `retryOperation` helpers differ:

- The one in 09-error-handling.js rethrows the last error. With
  `maxRetries <= 0` it never calls the operation and rejects with
  `undefined`.
- The one in 07-async-await.js always makes a first attempt and wraps the
  last error in "Failed after N retries: ...".

`AsyncAwait.RetryHelpersAgree` proves they make the same calls and schedule
the same delays whenever `maxRetries >= 1`.

## Model

| member | source | states |
|---|---|---|
| JsCore.FirstSuccess | 09-error-handling.js:319-334 | the first of the first n invocations that succeeds, or n when all fail: every earlier invocation failed |
| JsCore.FirstSuccessUnique | 09-error-handling.js:319-334 | any index with only failures before it and a success at it (or n) is the first success |
| JsCore.NatToString | 10-es6-features.js:78 | `${n}` of a non-negative number is a non-empty string of decimal digits without a leading zero |
| JsCore.NatToStringRoundTrip | 10-es6-features.js:78 | reading the digits of `${n}` back gives n |
| JsCore.IntToString | 10-es6-features.js:78 | `${i}` of a non-negative number is its digits; of a negative number "-" followed by the digits of its magnitude |
| JsCore.ToText | 10-es6-features.js:98 | `${v}` of a string is the string itself and of a number its decimal text |
| ErrorHandling.DivideNumbers | 09-error-handling.js:30-38 | a zero divisor throws "Division by zero is not allowed" before the type test; otherwise non-numbers throw a TypeError; the quotient is produced iff both are numbers and the divisor is non-zero |
| ErrorHandling.ObjectListText | 09-error-handling.js:56-58 | an array of k error objects prints as 16k-1 characters: piece i at offset 16i reads "[object Object]" and is followed by a comma, except the last |
| ErrorHandling.ValidationErrorText | 09-error-handling.js:48-59 | toString reads back as "ValidationError: ", then the message, then " (field: " with the field's text, then ")" at the end |
| ErrorHandling.RuleErrors | 09-error-handling.js:403-413 | a rule adds exactly the entry {field: the rule's field, message: the thrown message} iff its validator throws, and nothing otherwise |
| ErrorHandling.CollectErrors | 09-error-handling.js:401-413 | at most one entry per rule |
| ErrorHandling.CollectErrorsEmpty | 09-error-handling.js:401-413 | no entries iff every rule's validator passes |
| ErrorHandling.CollectErrorsCons | 09-error-handling.js:403-413 | entries come in the order of the rules |
| ErrorHandling.ValidateInput | 09-error-handling.js:400-419 | returns true iff every rule passes; otherwise throws "Input validation failed" carrying the entries of the failing rules in order |
| ErrorHandling.ValidateUser | 09-error-handling.js:61-71 | name is checked first: "Name is required" iff the name is empty; "Valid email is required" iff the name is present and the email has no '@'; passing implies both; only the three errors can be thrown |
| ErrorHandling.ValidateUserReportsFirstFailure | 09-error-handling.js:61-71 | validateUser throws iff one of its three checks (name, email with '@', age under 18 when given) fails, and throws the first failing check's error |
| ErrorHandling.ErrorLogger.constructor | 09-error-handling.js:266-268 | a new logger holds no logs |
| ErrorHandling.ErrorLogger.Log | 09-error-handling.js:270-288 | appends and returns an entry holding the error's message, its name and the context |
| ErrorHandling.ErrorLogger.GetLogs | 09-error-handling.js:290-292 | returns a copy equal to the logs |
| ErrorHandling.ErrorLogger.ClearLogs | 09-error-handling.js:294-296 | the logs become empty |
| ErrorHandling.RetrySession | 09-error-handling.js:316-334 | at most maxRetries calls; the first success resolves; all calls failing rejects with the last error (undefined when no call was made); a delay between consecutive calls only |
| ErrorHandling.RetryOperation | 09-error-handling.js:316-334 | the loop produces exactly the session RetrySession describes |
| ErrorHandling.DefaultRetries | 09-error-handling.js:316 | with the default maxRetries of 3: at most 3 calls and 2 delays, a first success ends after one call, and three failures throw the third error |
| ErrorHandling.GetDataWithFallback | 09-error-handling.js:337-348 | the fallback runs iff the primary fails; the result succeeds iff either succeeds; both failing throws "Both sources failed: m1, m2" |
| ErrorHandling.CircuitBreaker.constructor | 09-error-handling.js:352-359 | starts CLOSED with no failures, nextAttempt 0 and the given threshold and timeout |
| ErrorHandling.CircuitBreaker.WithDefaults | 09-error-handling.js:352 | the default threshold is 3 and the default timeout 10000 |
| ErrorHandling.CircuitBreaker.OnSuccess | 09-error-handling.js:380-383 | resets the failure count and closes the circuit, leaving the breaker valid |
| ErrorHandling.CircuitBreaker.OnFailure | 09-error-handling.js:385-392 | counts the failure; reaching the threshold opens the circuit until now + resetTimeout; a valid breaker stays valid, and reaching the threshold makes it valid |
| ErrorHandling.CircuitBreaker.Call | 09-error-handling.js:361-392 | an OPEN circuit with the call-time clock not past nextAttempt throws "Circuit breaker is OPEN" without invoking; otherwise the operation's outcome is passed through, success closing the circuit and failure counted; a failure reaching the threshold opens the circuit until the clock reading when the operation settled plus resetTimeout |
| ErrorHandling.ClosedBelowThreshold | 09-error-handling.js:385-392 | a closed circuit (threshold at least 1) has fewer failures than the threshold |
| AsyncAwait.GetUserDataPromise | 07-async-await.js:39-50 | resolves with the user iff userId > 0, otherwise rejects with "Invalid user ID" |
| AsyncAwait.RetrySession | 07-async-await.js:244-264 | between 1 and max(1, maxRetries) calls; the first success resolves; exhaustion rejects with "Failed after N retries: <last message>"; one delay before each re-attempt |
| AsyncAwait.RetryOperation | 07-async-await.js:244-264 | the attempt/re-schedule cycle produces exactly the session RetrySession describes |
| AsyncAwait.ExhaustedError | 07-async-await.js:257 | an Error whose message reads back as "Failed after ", the decimal text of maxRetries, " retries: " and the last error's message |
| AsyncAwait.DefaultRetries | 07-async-await.js:244 | with the default maxRetries of 3: at most 3 calls and 2 delays, a first success ends after one call, and three failures reject with "Failed after 3 retries: " and the third error's message |
| AsyncAwait.RetryHelpersAgree | 07-async-await.js:244-264 | for maxRetries >= 1 both retry helpers make the same calls and delays and succeed together; on exhaustion this one wraps the error the other rethrows |
| AdvancedConcepts.Counter.constructor | 11-advanced-concepts.js:8-9 | the count starts at 0 |
| AdvancedConcepts.Counter.Increment | 11-advanced-concepts.js:12-15 | adds one and returns the new count |
| AdvancedConcepts.Counter.Decrement | 11-advanced-concepts.js:16-19 | subtracts one and returns the new count |
| AdvancedConcepts.Counter.GetCount | 11-advanced-concepts.js:20-22 | returns the count |
| AdvancedConcepts.Counter.Reset | 11-advanced-concepts.js:23-26 | sets the count to 0 and returns 0 |
| AdvancedConcepts.CounterDemo | 11-advanced-concepts.js:30-35 | increment, increment, decrement, getCount give 1, 2, 1, 1 |
| AdvancedConcepts.CalculatorModule.constructor | 11-advanced-concepts.js:38-39 | memory starts at 0 |
| AdvancedConcepts.CalculatorModule.Add | 11-advanced-concepts.js:41-43 | add(a, b); its contract is AddSubtractInverse: subtracting b gives a back, and the arguments commute |
| AdvancedConcepts.CalculatorModule.Subtract | 11-advanced-concepts.js:45-47 | subtract(a, b); its contract is AddSubtractInverse: adding b gives a back |
| AdvancedConcepts.AddSubtractInverse | 11-advanced-concepts.js:41-47 | subtract(add(a, b), b) and add(subtract(a, b), b) both give a back, and add is commutative |
| AdvancedConcepts.CalculatorModule.StoreInMemory | 11-advanced-concepts.js:49-51 | memory holds the value |
| AdvancedConcepts.CalculatorModule.RecallMemory | 11-advanced-concepts.js:53-55 | returns memory |
| AdvancedConcepts.CalculatorModule.ClearMemory | 11-advanced-concepts.js:57-59 | memory becomes 0 |
| AdvancedConcepts.Reverse | 11-advanced-concepts.js:127-137 | same length, element i is element n-1-i of the input |
| AdvancedConcepts.Compose | 11-advanced-concepts.js:127-131 | compose() is the identity and compose(f) is f |
| AdvancedConcepts.Pipe | 11-advanced-concepts.js:133-137 | pipe() is the identity and pipe(f) is f |
| AdvancedConcepts.ComposeIsReversedPipe | 11-advanced-concepts.js:127-137 | compose(f1..fn) is pipe(fn..f1) on every input |
| AdvancedConcepts.ComposeAppliesFirstLast | 11-advanced-concepts.js:127-131 | compose applies its first function last |
| AdvancedConcepts.CompositionDemo | 11-advanced-concepts.js:140-153 | compose(subtract2, multiply3, add5, square)(2) and pipe(square, add5, multiply3, subtract2)(2) are both 25 |
| AdvancedConcepts.Memo.constructor | 11-advanced-concepts.js:158-159 | the cache starts empty |
| AdvancedConcepts.Memo.Call | 11-advanced-concepts.js:161-173 | always returns fn(key); fn runs iff the key is not cached, and the result is cached |
| AdvancedConcepts.Fibonacci | 11-advanced-concepts.js:176-179 | fibonacci(n) is non-negative for n >= 0 and at least 1 for n >= 1 |
| AdvancedConcepts.MemoizedFibonacci.constructor | 11-advanced-concepts.js:182 | the cache starts empty |
| AdvancedConcepts.MemoizedFibonacci.Call | 11-advanced-concepts.js:176-185 | the memoized recursion returns fibonacci(n), caches n and leaves an already-cached cache unchanged |
| AdvancedConcepts.Without | 11-advanced-concepts.js:275-277 | the filtered list no longer holds the observer and is no longer |
| AdvancedConcepts.WithoutKeepsOthers | 11-advanced-concepts.js:275-277 | every other observer keeps its number of occurrences |
| AdvancedConcepts.WithoutAppend | 11-advanced-concepts.js:275-277 | filtering distributes over concatenation |
| AdvancedConcepts.WithoutAbsent | 11-advanced-concepts.js:275-277 | filtering out an absent observer changes nothing |
| AdvancedConcepts.SubscribeThenUnsubscribe | 11-advanced-concepts.js:273-278 | subscribing a new observer and calling its unsubscribe restores the list |
| AdvancedConcepts.Observable.constructor | 11-advanced-concepts.js:269-271 | no observers |
| AdvancedConcepts.Observable.Subscribe | 11-advanced-concepts.js:273-274 | the observer is appended |
| AdvancedConcepts.Observable.Unsubscribe | 11-advanced-concepts.js:275-277 | every occurrence of the observer is removed, the others stay in order |
| AdvancedConcepts.Observable.Notify | 11-advanced-concepts.js:280-282 | each observer is called once with the data, in subscription order |
| AdvancedConcepts.GuardedObject.constructor | 11-advanced-concepts.js:310-346 | the proxy wraps the given target |
| AdvancedConcepts.GuardedObject.Get | 11-advanced-concepts.js:317-323 | an own property's value; otherwise a member inherited from Object.prototype (such as toString); otherwise 'Property "p" not found' |
| AdvancedConcepts.GuardedObject.Set | 11-advanced-concepts.js:325-333 | setting age to a non-number or a negative number throws and leaves the target unchanged; any other set stores the value |
| AdvancedConcepts.GuardedObject.Has | 11-advanced-concepts.js:335-338 | true iff the target has the property as its own or inherits it from Object.prototype |
| AdvancedConcepts.GuardedObject.DeleteProperty | 11-advanced-concepts.js:340-343 | removes the property and reports success |
| AdvancedConcepts.ProxyDemo | 11-advanced-concepts.js:346-361 | proxy.name is "John", proxy.address the not-found message, age = -5 throws, age = 31 is stored, 'name' in proxy holds, and age after delete reads the not-found message |
| AdvancedConcepts.ResettableGenerator.constructor | 11-advanced-concepts.js:368-369 | a new generator has not started and will yield 1 first |
| AdvancedConcepts.ResettableGenerator.Next | 11-advanced-concepts.js:368-378 | the first next yields 1; later, a truthy argument restarts at 1 and anything else yields one more |
| AdvancedConcepts.GeneratorDemo | 11-advanced-concepts.js:380-385 | next, next, next, next(true), next yield 1, 2, 3, 1, 2 |
| Classes.Vehicle.constructor | 05-classes.js:21-25 | a plain vehicle with the brand and model, speed 0, no year |
| Classes.Vehicle.MakeCar | 05-classes.js:60-64 | a car keeps its doors and starts with the engine off |
| Classes.Vehicle.MakeElectricCar | 05-classes.js:79-83 | an electric car keeps its battery capacity and starts fully charged |
| Classes.Vehicle.Accelerate | 05-classes.js:28-31 | the speed grows by the amount |
| Classes.Vehicle.Brake | 05-classes.js:33-36 | the speed drops by the amount but never below 0 |
| Classes.Vehicle.Description | 05-classes.js:39-41 | the description getter; its contract is DescriptionSplits: it splits back into the brand and the model |
| Classes.DescriptionSplits | 05-classes.js:39-41 | the description splits back into the brand and the model when neither holds a space |
| Classes.Vehicle.SetModelYear | 05-classes.js:44-50 | a year after 1886 is stored; any other year leaves the year unchanged |
| Classes.Vehicle.StartEngine | 05-classes.js:67-70 | a car's or electric car's engine is on afterwards |
| Classes.Vehicle.ChargeBattery | 05-classes.js:91-94 | the battery level grows by the amount, capped at 100 |
| Classes.CompareSpeed | 05-classes.js:53-55 | positive, zero or negative as the first vehicle is faster, as fast or slower; the difference of the speeds |
| Classes.NeverOverdrawnAppend | 05-classes.js:160-186 | appending a transaction that keeps the running balance non-negative keeps the whole history non-negative |
| Classes.BankAccount.constructor | 05-classes.js:151-158 | balance 0 and no transactions |
| Classes.BankAccount.Deposit | 05-classes.js:160-170 | a positive amount is added and recorded; anything else changes nothing |
| Classes.BankAccount.Withdraw | 05-classes.js:172-186 | an amount between 1 and the balance is taken, recorded and returned; otherwise 0 is returned and nothing changes; the balance always equals the net of the history and is never negative |
| Classes.BankAccount.GetBalance | 05-classes.js:188-190 | the balance, never negative |
| Classes.BankAccount.GetTransactionHistory | 05-classes.js:192-194 | a copy equal to the history |
| Classes.Logger.constructor | 05-classes.js:224-231 | a fresh logger has no logs |
| Classes.Logger.Log | 05-classes.js:233-237 | the message is appended |
| Classes.Logger.GetLogs | 05-classes.js:239-241 | a copy equal to the logs |
| Classes.LoggerSlot.constructor | 05-classes.js:226 | no instance exists yet |
| Classes.NewLogger | 05-classes.js:224-231 | new Logger() returns the existing instance when there is one, otherwise a fresh logger that becomes the instance |
| Classes.SingletonDemo | 05-classes.js:224-242 | two new Logger() calls give the same object, which holds both messages |
| Classes.VehicleKindFor | 05-classes.js:245-255 | "car" and "electric" build those kinds from the extra arguments; any other type is an error "Unknown vehicle type: <type>" |
| Classes.CreateVehicle | 05-classes.js:245-255 | returns a fresh vehicle of the kind VehicleKindFor chooses, at speed 0, with no year and the engine off, an electric car fully charged; or throws VehicleKindFor's error |
| Functions.Factorial | 03-functions.js:87-90 | at least 1, and at least n for n >= 1 |
| Functions.FactorialDivisible | 03-functions.js:87-90 | every k from 1 to n divides factorial(n) |
| Functions.FactorialOfFive | 03-functions.js:165 | factorial(5) is 120 |
| Functions.Sum | 03-functions.js:31-33 | the sum of non-negative numbers is non-negative; a single number is its own sum |
| Functions.SumAppend | 03-functions.js:31-33 | the sum of a concatenation is the sum of the sums |
| Functions.SumIsTotal | 03-functions.js:31-33 | the left-to-right reduce equals the right-to-left total, so sum() is 0 |
| Functions.CreateMultiplier | 03-functions.js:44-48 | the multiplier maps 0 to 0, 1 to the factor and -1 to its negation |
| Functions.MultipliersCompose | 03-functions.js:44-48 | applying multipliers a and b is applying the multiplier a*b |
| Functions.TruthyMemo.constructor | 03-functions.js:93-94 | the cache starts empty |
| Functions.TruthyMemo.Call | 03-functions.js:95-104 | always returns fn(key); fn runs unless a truthy value is cached, and its result is stored |
| Functions.RepeatedCall | 03-functions.js:97-102 | the second call with the same key recomputes iff the value is falsy |
| Functions.CountingGenerator.constructor | 03-functions.js:67-68 | will yield 0 first |
| Functions.CountingGenerator.Next | 03-functions.js:69-71 | yields the current number and moves to the next |
| Functions.CountingGeneratorDemo | 03-functions.js:181-184 | three next() calls yield 0, 1, 2 |
| Functions.CreateGreeting | 03-functions.js:26-28 | "<greeting>, <name>!" with "Hello" when the greeting is omitted |
| Functions.DefaultGreetingIsHello | 03-functions.js:26-28 | omitting the greeting equals passing "Hello" |
| Es6Features.Markup | 10-es6-features.js:98 | a truthy value is wrapped in strong tags; a falsy or missing one gives nothing |
| Es6Features.Highlight | 10-es6-features.js:96-101 | the output is never shorter than the literal pieces joined |
| Es6Features.HighlightSplitStep | 10-es6-features.js:97-100 | moving one piece from the interleaved rest into the fold leaves the output unchanged |
| Es6Features.HighlightSplit | 10-es6-features.js:96-101 | the fold over a prefix followed by the rest interleaved is the whole output |
| Es6Features.HighlightPrefixStep | 10-es6-features.js:97-100 | one more literal piece appends that piece and its markup |
| Es6Features.HighlightWhole | 10-es6-features.js:97-100 | the fold over all pieces followed by nothing is the output |
| Es6Features.HighlightInterleaves | 10-es6-features.js:96-101 | the output is each literal piece followed by the markup of its value, in order |
| Es6Features.FalsyValueDropped | 10-es6-features.js:98 | a falsy value leaves the same output as undefined |
| Es6Features.NoTruthyValues | 10-es6-features.js:96-101 | without truthy values the output is the literal pieces joined |
| Es6Features.SingleLiteral | 10-es6-features.js:96-101 | a template without substitutions comes back unchanged |
| Es6Features.LastPieceBare | 10-es6-features.js:97-100 | with one value fewer than pieces the last piece is not followed by markup |
| Es6Features.HighlightTwoValues | 10-es6-features.js:96-101 | a template with two substitutions gives piece 0, markup 0, piece 1, markup 1, piece 2 |
| Es6Features.HighlightDemo | 10-es6-features.js:103 | the tagged template of the demonstration gives "Hello <strong>John</strong>, you are <strong>30</strong> years old." |
| Es6Features.OrDefault | 10-es6-features.js:152 | a default replaces undefined only |
| Es6Features.GreetPerson | 10-es6-features.js:152-154 | the greeting ends with "!", starts with "Hello, " when the greeting is omitted and ends with "Guest!" when the name is omitted |
| Es6Features.GreetPersonIsCreateGreeting | 10-es6-features.js:152-154 | greetPerson formats like createGreeting, with "Guest" and "Hello" as defaults |
| Es6Features.GreetPersonDemo | 10-es6-features.js:156-158 | the three calls give "Hello, Guest!", "Hello, John!" and "Good morning, Alice!" |
| Es6Features.CreateUser | 10-es6-features.js:161-163 | each field is the supplied one, or its default when undefined; no argument gives Anonymous, 18, false |
| Es6Features.CreateUserOverridesOnly | 10-es6-features.js:161-166 | supplying {} equals no argument; supplying one field changes that field only |
| Es6Features.CreateUserDemo | 10-es6-features.js:166 | createUser({name: "Bob"}) is Bob, 18, false |
| Es6Features.Swap | 10-es6-features.js:117-120 | the two values are exchanged |
| Es6Features.SwapTwice | 10-es6-features.js:117-120 | swapping twice restores both values |
| Es6Features.SumAllDemo | 10-es6-features.js:174-177 | sumAll() is 0 and sumAll(1, 2, 3, 4, 5) is 15 |
| ObjectsArrays.Split | 04-objects-arrays.js:78 | at least one piece; exactly one iff the string has no space |
| ObjectsArrays.SplitPiecesHaveNoSpace | 04-objects-arrays.js:78 | no piece holds a space |
| ObjectsArrays.JoinSplit | 04-objects-arrays.js:78 | joining the pieces with single spaces gives the string back |
| ObjectsArrays.SplitJoin | 04-objects-arrays.js:78 | splitting a join of space-free pieces gives the pieces back |
| ObjectsArrays.SplitNoSpace | 04-objects-arrays.js:78 | a string without a space is its own single piece |
| ObjectsArrays.SplitWordThenSpace | 04-objects-arrays.js:78 | a space-free word, a space and a tail split into the word then the tail's pieces |
| ObjectsArrays.ParseFullName | 04-objects-arrays.js:77-81 | the first piece and the second piece, or "" when there is none |
| ObjectsArrays.FirstNameBeforeFirstSpace | 04-objects-arrays.js:78-79 | the first name is the text before the first space, or the whole name when it has none (then the last name is "") |
| ObjectsArrays.ParseFullNameRoundTrip | 04-objects-arrays.js:73-81 | "first last" with space-free names sets exactly those names; pieces after a second space are dropped |
| ObjectsArrays.User.constructor | 04-objects-arrays.js:69-71 | both name fields start empty |
| ObjectsArrays.User.FullName | 04-objects-arrays.js:73-75 | the first name, a space at its end, then the last name |
| ObjectsArrays.User.SetFullName | 04-objects-arrays.js:77-81 | stores what ParseFullName gives |
| ObjectsArrays.SetThenGet | 04-objects-arrays.js:84-85 | setting a name with exactly one space and reading it back gives the same name |
| ObjectsArrays.GetFullName | 04-objects-arrays.js:93-95 | the first name, a space, then the last name |
| ObjectsArrays.GetInfo | 04-objects-arrays.js:28-30 | reads back as the year's text, a space, the brand, a space and the model, for any brand and model |
| ObjectsArrays.GetFullNameSplits | 04-objects-arrays.js:93-95 | getFullName of space-free names splits back into the two names |
| ObjectsArrays.GetInfoSplits | 04-objects-arrays.js:28-30 | getInfo (and OldCar's identical getInfo, 05-classes.js:8-10) splits back into the year's text, the brand and the model when those hold no space |

## Left out

- 08-dom-manipulation.js is not part of this model: it works only through the browser's DOM.
- Console output, `console.time`, ISO timestamps (`ValidationError.timestamp`, the `ErrorLogger` entry's `timestamp` and `stack`, the `Logger` entry's `timestamp`, the `BankAccount` transaction `date`) are not modelled; they carry no logic.
- Numbers are unbounded integers: fractional quotients, `NaN`, `Infinity`, `toFixed`, `ElectricCar.getRange`, `Circle` and the `Math.PI` areas are left out.
- Timers: `setTimeout` delays are counted, never waited; `throttle` and `debounce` (11-advanced-concepts.js:207-241) depend on wall-clock time and are left out.
- Randomness: `fetchWithRetry`, `failingOperation` and the random promise depend on `Math.random` and are left out.
- Concurrency: the model runs each promise chain sequentially. Interleaved calls of `CircuitBreaker.call` are not modelled, so its HALF_OPEN state never outlives a call.
- The promise demonstrations (`Promise.all`, `race`, `allSettled`, `any`, the callback pyramid, `withTimeout`, the async generator runner) and Web Workers are left out: they only combine the operations modelled above with the event loop.
- `curry`, `curryMultiply`, `Shape`/`Rectangle`, the mixins, `Animal`, `listArguments`, `introduce` and the call/apply/bind demonstrations are left out as language demonstrations without behaviour of their own.
- Memoization keys: both `memoize` functions key their cache by `JSON.stringify(args)`; the model keys it by the argument itself. Distinct arguments with the same JSON text (such as `undefined` and `null` inside an array) share one cache entry in the scripts but not in the model.
- ErrorHandling.ValidateInput: the example rules (username length, email regular expression) are not modelled; each rule is a validator that passes or fails with a message.
- ErrorHandling.ValidateUser: name and email are strings and age an optional integer; other JavaScript types for these fields (a missing name or email, a string age) are not modelled.
- ErrorHandling.ValidateUserReportsFirstFailure: name and email are strings and age an optional integer; other JavaScript types for these fields are not modelled.
- AdvancedConcepts.Observable.Notify: observers are assumed to return. In JavaScript an observer that throws inside `forEach` (11-advanced-concepts.js:281) ends `notify`: the observers after it are not called and the error reaches the caller. This is not modelled.
- AdvancedConcepts.Memo.Call: `fn` is assumed to return. In JavaScript a throwing `fn` (11-advanced-concepts.js:169) passes its error to the caller and caches nothing. This is not modelled.
- Functions.TruthyMemo.Call: `fn` is assumed to return. In JavaScript a throwing `fn` (03-functions.js:101) passes its error to the caller and caches nothing. This is not modelled.
- Classes.BankAccount.GetTransactionHistory: the model returns the history as a value. In JavaScript the copy `[...this.#transactions]` shares its transaction objects with the account. Editing a returned transaction, such as its amount, changes the stored history and can break `balance == Net(transactions)`; such edits are not modelled.
- ErrorHandling.ErrorLogger.Log: the model returns the entry as a value. In JavaScript it is the very object pushed onto the log, so a caller's edits to it change the stored log; such edits are not modelled.
- ErrorHandling.ErrorLogger.GetLogs: the model returns the log as a value. In JavaScript the copy shares its entry objects with the logger, so a caller's edits to an entry change the stored log; such edits are not modelled.
- Classes.Logger.GetLogs: the model returns the logs as a value. In JavaScript the copy shares its entry objects with the logger, so a caller's edits to an entry change the stored logs; such edits are not modelled.
- ErrorHandling.ErrorLogger.Log: the omitted context `{}` is the empty map; the entry's timestamp and stack are dropped.
- AdvancedConcepts.GuardedObject.Get: an inherited member of Object.prototype is returned as its name only; its function value is not modelled.
- AdvancedConcepts.GuardedObject.Set: assigning `__proto__` changes the prototype in JavaScript; the model stores it as an own property.
- Es6Features.CreateUser: a `null` argument, on which destructuring throws, is not modelled; the argument is either absent or an object.
- Classes.Vehicle.StartEngine: `startEngine` exists only on cars; calling it on a plain vehicle throws a TypeError in JavaScript, while the model requires a car or electric car. The two overrides differ only in their console message.
- Classes.Vehicle.ChargeBattery: calling `chargeBattery` on a vehicle that is not an electric car throws a TypeError in JavaScript; the model requires an electric car.
- JsCore.NatToString: JavaScript prints numbers from 1e21 upwards in exponent notation; the model always gives plain decimal digits.
- ErrorHandling.DefaultRetries: the default `delay` of 1000 ms (also in 07-async-await.js:244) is not modelled, since delays are counted and not waited.

=== FILE: advanced_concepts.dfy ===
/** 11-advanced-concepts.js: closures that keep state (a counter, a module
    with a memory cell), function composition, memoization, the observer
    pattern, a validating property accessor in place of the Proxy, and a
    resettable number generator. */
module AdvancedConcepts {
  import opened JsCore

  // ---------------------------------------------------------------
  // createCounter

  /** The object `createCounter()` returns, with its private `count`.
      03-functions.js builds the same object without `reset`. */
  class Counter {
    var count: int

    /** `createCounter()`: the count starts at 0. */
    constructor ()
      ensures count == 0
    {
      count := 0;
    }

    method Increment() returns (value: int)
      modifies this
      ensures count == old(count) + 1 && value == count
    {
      count := count + 1;
      value := count;
    }

    method Decrement() returns (value: int)
      modifies this
      ensures count == old(count) - 1 && value == count
    {
      count := count - 1;
      value := count;
    }

    /** `getCount()` changes nothing. */
    method GetCount() returns (value: int)
      ensures value == count
    {
      value := count;
    }

    method Reset() returns (value: int)
      modifies this
      ensures count == 0 && value == 0
    {
      count := 0;
      value := count;
    }
  }

  /** The calls of the closure demonstration give 1, 2, 1 and then 1. */
  method CounterDemo() returns (values: seq<int>)
    ensures values == [1, 2, 1, 1]
  {
    var counter := new Counter();
    var a := counter.Increment();
    var b := counter.Increment();
    var c := counter.Decrement();
    var d := counter.GetCount();
    values := [a, b, c, d];
  }

  // ---------------------------------------------------------------
  // calculatorModule

  /** The object the calculator module pattern returns, with its private
      `memory` cell. */
  class CalculatorModule {
    var memory: int

    constructor ()
      ensures memory == 0
    {
      memory := 0;
    }

    /** `add(a, b)`. */
    function Add(a: int, b: int): int
    {
      a + b
    }

    /** `subtract(a, b)`. */
    function Subtract(a: int, b: int): int
    {
      a - b
    }

    method StoreInMemory(value: int)
      modifies this
      ensures memory == value
    {
      memory := value;
    }

    /** `recallMemory()`: the value stored last, 0 initially and after a clear. */
    method RecallMemory() returns (value: int)
      ensures value == memory
    {
      value := memory;
    }

    method ClearMemory()
      modifies this
      ensures memory == 0
    {
      memory := 0;
    }
  }

  /** `subtract` undoes `add` and `add` undoes `subtract`; neither depends
      on the module's memory. */
  lemma AddSubtractInverse(m: CalculatorModule, a: int, b: int)
    ensures m.Subtract(m.Add(a, b), b) == a
    ensures m.Add(m.Subtract(a, b), b) == a
    ensures m.Add(a, b) == m.Add(b, a)
  {
  }

  // ---------------------------------------------------------------
  // compose and pipe

  /** `compose(...fns)(x)`: `reduceRight`, so the last function runs first. */
  function Compose<T>(fns: seq<T -> T>, x: T): (r: T)
    ensures fns == [] ==> r == x
    ensures |fns| == 1 ==> r == fns[0](x)
    decreases |fns|
  {
    if fns == [] then x else Compose(fns[..|fns| - 1], fns[|fns| - 1](x))
  }

  /** `pipe(...fns)(x)`: `reduce`, so the first function runs first. */
  function Pipe<T>(fns: seq<T -> T>, x: T): (r: T)
    ensures fns == [] ==> r == x
    ensures |fns| == 1 ==> r == fns[0](x)
    decreases |fns|
  {
    if fns == [] then x else Pipe(fns[1..], fns[0](x))
  }

  function Reverse<T>(s: seq<T>): (r: seq<T>)
    ensures |r| == |s|
    ensures forall i :: 0 <= i < |s| ==> r[i] == s[|s| - 1 - i]
  {
    if s == [] then [] else [s[|s| - 1]] + Reverse(s[..|s| - 1])
  }

  /** Composing a list is piping it reversed. */
  lemma {:induction false} ComposeIsReversedPipe<T>(fns: seq<T -> T>, x: T)
    ensures Compose(fns, x) == Pipe(Reverse(fns), x)
    decreases |fns|
  {
    if fns != [] {
      var init, last := fns[..|fns| - 1], fns[|fns| - 1];
      assert Reverse(fns) == [last] + Reverse(init);
      assert Reverse(fns)[1..] == Reverse(init);
      ComposeIsReversedPipe(init, last(x));
    }
  }

  /** In `compose`, the first function listed is applied last, to what the
      others produced. */
  lemma {:induction false} ComposeAppliesFirstLast<T>(fns: seq<T -> T>, x: T)
    requires fns != []
    ensures Compose(fns, x) == fns[0](Compose(fns[1..], x))
    decreases |fns|
  {
    if |fns| > 1 {
      var init, last := fns[..|fns| - 1], fns[|fns| - 1];
      ComposeAppliesFirstLast(init, last(x));
      assert init[1..] == fns[1..][..|fns[1..]| - 1];
    }
  }

  /** The example functions of the composition demonstration. */
  function Add5(x: int): int { x + 5 }
  function Multiply3(x: int): int { x * 3 }
  function Subtract2(x: int): int { x - 2 }
  function Square(x: int): int { x * x }

  /** The demonstration: composing subtract2, multiply3, add5, square and
      piping them in the opposite order both turn 2 into 25. */
  lemma CompositionDemo()
    ensures Compose([Subtract2, Multiply3, Add5, Square], 2) == 25
    ensures Pipe([Square, Add5, Multiply3, Subtract2], 2) == 25
  {
    var composed := [Subtract2, Multiply3, Add5, Square];
    assert composed[..3] == [Subtract2, Multiply3, Add5];
    assert composed[..3][..2] == [Subtract2, Multiply3];
    assert composed[..3][..2][..1] == [Subtract2];
    assert Compose(composed, 2) == Compose([Subtract2, Multiply3, Add5], 4);
    assert Compose([Subtract2, Multiply3, Add5], 4) == Compose([Subtract2, Multiply3], 9);
    assert Compose([Subtract2, Multiply3], 9) == Compose([Subtract2], 27);
    assert Compose([Subtract2], 27) == Compose([], 25);
    var piped := [Square, Add5, Multiply3, Subtract2];
    assert piped[1..] == [Add5, Multiply3, Subtract2];
    assert piped[1..][1..] == [Multiply3, Subtract2];
    assert piped[1..][1..][1..] == [Subtract2];
    assert Pipe(piped, 2) == Pipe([Add5, Multiply3, Subtract2], 4);
    assert Pipe([Add5, Multiply3, Subtract2], 4) == Pipe([Multiply3, Subtract2], 9);
    assert Pipe([Multiply3, Subtract2], 9) == Pipe([Subtract2], 27);
    assert Pipe([Subtract2], 27) == Pipe([], 25);
  }

  // ---------------------------------------------------------------
  // memoize

  /** The function `memoize(fn)` returns, with its private cache (a Map keyed
      by the argument). */
  class Memo<K(==), V> {
    const fn: K -> V
    var cache: map<K, V>

    /** Every cached value is what `fn` gives for its key. */
    ghost predicate Valid()
      reads this
    {
      forall k :: k in cache ==> cache[k] == fn(k)
    }

    constructor (fn: K -> V)
      ensures Valid() && this.fn == fn && cache == map[]
    {
      this.fn := fn;
      cache := map[];
    }

    /** One call: the result is always `fn(key)`; `fn` runs only when the key
        is not cached yet, and the result is cached. */
    method Call(key: K) returns (r: V, computed: bool)
      requires Valid()
      modifies this
      ensures Valid()
      ensures r == fn(key)
      ensures computed <==> key !in old(cache)
      ensures cache == old(cache)[key := r]
    {
      if key in cache {
        return cache[key], false;
      }
      r := fn(key);
      cache := cache[key := r];
      computed := true;
    }
  }

  // ---------------------------------------------------------------
  // fibonacci

  /** `fibonacci(n)`: `n` for `n <= 1`, otherwise the sum of the two before. */
  function Fibonacci(n: int): (r: int)
    ensures n >= 0 ==> r >= 0
    ensures n >= 1 ==> r >= 1
    decreases n
  {
    if n <= 1 then n else Fibonacci(n - 1) + Fibonacci(n - 2)
  }

  /** `memoizedFibonacci`: the memoized wrapper around a body that calls the
      wrapper itself, with the wrapper's cache. */
  class MemoizedFibonacci {
    var cache: map<int, int>

    ghost predicate Valid()
      reads this
    {
      forall k :: k in cache ==> cache[k] == Fibonacci(k)
    }

    constructor ()
      ensures Valid() && cache == map[]
    {
      cache := map[];
    }

    /** Agrees with `fibonacci`, and leaves `n` cached; a cached `n` changes
        nothing. */
    method Call(n: int) returns (r: int)
      requires Valid()
      modifies this
      ensures Valid()
      ensures r == Fibonacci(n)
      ensures n in cache && old(cache).Keys <= cache.Keys
      ensures n in old(cache) ==> cache == old(cache)
      decreases n
    {
      if n in cache {
        return cache[n];
      }
      if n <= 1 {
        r := n;
      } else {
        var a := Call(n - 1);
        var b := Call(n - 2);
        r := a + b;
      }
      cache := cache[n := r];
    }
  }

  // ---------------------------------------------------------------
  // Observable

  /** `observers.filter(obs => obs !== o)`. */
  function Without<O(==)>(s: seq<O>, o: O): (r: seq<O>)
    ensures o !in r
    ensures |r| <= |s|
  {
    if s == [] then []
    else if s[0] == o then Without(s[1..], o)
    else [s[0]] + Without(s[1..], o)
  }

  /** Filtering keeps every other observer, as often as it occurred. */
  lemma {:induction false} WithoutKeepsOthers<O>(s: seq<O>, o: O, x: O)
    requires x != o
    ensures multiset(Without(s, o))[x] == multiset(s)[x]
  {
    if s != [] {
      WithoutKeepsOthers(s[1..], o, x);
      assert s == [s[0]] + s[1..];
    }
  }

  /** Filtering keeps order: it distributes over concatenation. */
  lemma {:induction false} WithoutAppend<O>(s: seq<O>, t: seq<O>, o: O)
    ensures Without(s + t, o) == Without(s, o) + Without(t, o)
  {
    if s == [] {
      assert s + t == t;
    } else {
      assert (s + t)[0] == s[0];
      assert (s + t)[1..] == s[1..] + t;
      WithoutAppend(s[1..], t, o);
      if s[0] != o {
        assert Without(s + t, o) == [s[0]] + (Without(s[1..], o) + Without(t, o));
      }
    }
  }

  /** Filtering out an observer that is not there changes nothing. */
  lemma {:induction false} WithoutAbsent<O>(s: seq<O>, o: O)
    requires o !in s
    ensures Without(s, o) == s
  {
    if s != [] {
      WithoutAbsent(s[1..], o);
    }
  }

  /** Unsubscribing a newly subscribed observer restores the list. */
  lemma SubscribeThenUnsubscribe<O>(s: seq<O>, o: O)
    requires o !in s
    ensures Without(s + [o], o) == s
  {
    WithoutAppend(s, [o], o);
    WithoutAbsent(s, o);
    assert Without([o], o) == [];
  }

  class Observable<O(==)> {
    var observers: seq<O>

    constructor ()
      ensures observers == []
    {
      observers := [];
    }

    /** `subscribe(o)` appends `o`; the function it returns is Unsubscribe(o). */
    method Subscribe(o: O)
      modifies this
      ensures observers == old(observers) + [o]
    {
      observers := observers + [o];
    }

    /** The unsubscribe function: removes every occurrence of `o`. */
    method Unsubscribe(o: O)
      modifies this
      ensures observers == Without(old(observers), o)
    {
      observers := Without(observers, o);
    }

    /** `notify(data)`: calls each current observer once, in list order; the
        result lists the calls made. */
    method Notify<D>(data: D) returns (calls: seq<(O, D)>)
      ensures |calls| == |observers|
      ensures forall i :: 0 <= i < |observers| ==> calls[i] == (observers[i], data)
    {
      calls := [];
      for i := 0 to |observers|
        invariant |calls| == i
        invariant forall k :: 0 <= k < i ==> calls[k] == (observers[k], data)
      {
        calls := calls + [(observers[i], data)];
      }
    }
  }

  // ---------------------------------------------------------------
  // Proxy handler

  const AgeRejected := MakeError("Age must be a positive number")

  /** The properties every plain object inherits from `Object.prototype`,
      which `in` and the `get` trap's `property in target` see as well. */
  const ObjectPrototypeMembers: set<string> := {
    "constructor", "hasOwnProperty", "isPrototypeOf", "propertyIsEnumerable",
    "toLocaleString", "toString", "valueOf", "__proto__",
    "__defineGetter__", "__defineSetter__", "__lookupGetter__", "__lookupSetter__"
  }

  /** What the `get` trap returns: a value, or the inherited member of that
      name (a function, or the prototype for `__proto__`). */
  datatype PropertyRead = Value(value: JsValue) | InheritedMember(name: string)

  /** The message the `get` trap returns for a missing property. */
  function NotFoundMessage(p: string): JsValue
  {
    Str("Property \"" + p + "\" not found")
  }

  /** The proxied object: its target's own properties, read and written
      through the handler's `get`, `set`, `has` and `deleteProperty` traps.
      The target's prototype is `Object.prototype`. */
  class GuardedObject {
    var target: map<string, JsValue>

    constructor (target: map<string, JsValue>)
      ensures this.target == target
    {
      this.target := target;
    }

    /** `get`: an own property's value, else the inherited member, else
        `Property "<p>" not found`. */
    function Get(p: string): (r: PropertyRead)
      reads this
      ensures p in target ==> r == Value(target[p])
      ensures p !in target && p in ObjectPrototypeMembers ==> r == InheritedMember(p)
      ensures p !in target && p !in ObjectPrototypeMembers ==> r == Value(NotFoundMessage(p))
    {
      if p in target then Value(target[p])
      else if p in ObjectPrototypeMembers then InheritedMember(p)
      else Value(NotFoundMessage(p))
    }

    /** `set`: an `age` that is not a number or is negative throws and leaves
        the target unchanged; anything else is stored. */
    method Set(p: string, v: JsValue) returns (thrown: Option<ErrorValue>)
      modifies this
      ensures thrown.Some? <==> p == "age" && (!v.Num? || v.n < 0)
      ensures thrown.Some? ==> thrown.value == AgeRejected && target == old(target)
      ensures thrown.None? ==> target == old(target)[p := v]
    {
      if p == "age" && (!v.Num? || v.n < 0) {
        return Some(AgeRejected);
      }
      target := target[p := v];
      thrown := None;
    }

    /** `has`: `property in target`, own or inherited. */
    method Has(p: string) returns (b: bool)
      ensures b <==> p in target || p in ObjectPrototypeMembers
    {
      b := p in target || p in ObjectPrototypeMembers;
    }

    /** `deleteProperty`: removes an own property; inherited members stay. */
    method DeleteProperty(p: string) returns (ok: bool)
      modifies this
      ensures ok && target == old(target) - {p}
    {
      target := target - {p};
      ok := true;
    }
  }

  /** The demonstration on `{ name: "John", age: 30 }`: reading `name` and the
      missing `address`, the rejected `age = -5`, `age = 31`, `'name' in
      proxy`, then `delete proxy.age` and reading `age` again. */
  method ProxyDemo() returns (name: PropertyRead, address: PropertyRead, rejected: Option<ErrorValue>,
                              accepted: Option<ErrorValue>, hasName: bool, ageAfterDelete: PropertyRead)
    ensures name == Value(Str("John"))
    ensures address == Value(NotFoundMessage("address"))
    ensures rejected == Some(AgeRejected)
    ensures accepted == None
    ensures hasName
    ensures ageAfterDelete == Value(NotFoundMessage("age"))
  {
    assert "address" !in ObjectPrototypeMembers && "age" !in ObjectPrototypeMembers by {
      assert "address"[0] == 'a' && "age"[0] == 'a';
    }
    var proxy := new GuardedObject(map["name" := Str("John"), "age" := Num(30)]);
    name := proxy.Get("name");
    address := proxy.Get("address");
    rejected := proxy.Set("age", Num(-5));
    accepted := proxy.Set("age", Num(31));
    hasName := proxy.Has("name");
    var _ := proxy.DeleteProperty("age");
    ageAfterDelete := proxy.Get("age");
  }

  // ---------------------------------------------------------------
  // numberGenerator

  /** The generator object `numberGenerator()` returns: `num` starts at 1; the
      value passed to `next` is the result of the paused `yield`, so the
      argument of the first `next` is ignored. */
  class ResettableGenerator {
    var started: bool
    var num: int

    ghost predicate Valid()
      reads this
    {
      num >= 1
    }

    constructor ()
      ensures Valid() && !started && num == 1
    {
      started := false;
      num := 1;
    }

    /** `next(reset)`: the first call yields 1; later calls yield 1 after a
        truthy `reset` and the previous value plus one otherwise. */
    method Next(reset: JsValue) returns (value: int)
      requires Valid()
      modifies this
      ensures Valid() && started && value == num
      ensures !old(started) ==> num == old(num)
      ensures old(started) && Truthy(reset) ==> num == 1
      ensures old(started) && !Truthy(reset) ==> num == old(num) + 1
    {
      if started {
        if Truthy(reset) {
          num := 1;
        } else {
          num := num + 1;
        }
      }
      started := true;
      value := num;
    }
  }

  /** The demonstration: 1, 2, 3, then 1 after `next(true)`, then 2. */
  method GeneratorDemo() returns (values: seq<int>)
    ensures values == [1, 2, 3, 1, 2]
  {
    var gen := new ResettableGenerator();
    var a := gen.Next(Undefined);
    var b := gen.Next(Undefined);
    var c := gen.Next(Undefined);
    var d := gen.Next(Bool(true));
    var e := gen.Next(Undefined);
    values := [a, b, c, d, e];
  }
}

=== FILE: async_await.dfy ===
/** 07-async-await.js: the `userId > 0` rule of getUserDataPromise and the
    promise-based retry counter. Attempts run one after another, so the
    re-scheduling through `setTimeout` is a sequential loop here and each
    scheduled delay is counted rather than waited. */
module AsyncAwait {
  import opened JsCore
  import ErrorHandling

  /** The user record getUserDataPromise resolves with. */
  datatype UserData = UserData(id: int, name: string, email: string)

  /** `getUserDataPromise(userId)`: resolves with the user whose id is
      `userId` iff `userId > 0`, and rejects with "Invalid user ID" otherwise. */
  function GetUserDataPromise(userId: int): (r: Outcome<UserData>)
    ensures r.Success? <==> userId > 0
    ensures r.Success? ==> r.value == UserData(userId, "John Doe", "john@example.com")
    ensures r.Failure? ==> r.error == MakeError("Invalid user ID")
  {
    if userId > 0 then Success(UserData(userId, "John Doe", "john@example.com"))
    else Failure(MakeError("Invalid user ID"))
  }

  /** A retry session: how the promise settles, how many times the operation
      ran, the final value of the `retries` counter and how many re-attempts
      were scheduled after a delay. */
  datatype RetryReport<T> = RetryReport(result: Outcome<T>, calls: nat, retries: nat, delays: nat)

  /** The rejection after the last failed attempt. */
  function ExhaustedError(maxRetries: int, last: ErrorValue): (e: ErrorValue)
    ensures e.name == "Error"
    ensures |e.message| > |last.message| + 20
    ensures e.message[..13] == "Failed after "
    ensures e.message[|e.message| - |last.message|..] == last.message
    ensures var t := IntToString(maxRetries);
            |e.message| == 13 + |t| + 10 + |last.message| &&
            e.message[13..13 + |t|] == t &&
            e.message[13 + |t|..|e.message| - |last.message|] == " retries: "
  {
    MakeError("Failed after " + IntToString(maxRetries) + " retries: " + last.message)
  }

  /** The session `retryOperation(op, maxRetries, delay)` runs. The first
      attempt is unconditional, so the operation runs at most
      `max(1, maxRetries)` times; the first success settles the promise; each
      failure increments `retries`, and a re-attempt is scheduled only while
      `retries < maxRetries`. */
  function RetrySession<T>(op: Operation<T>, maxRetries: int): (r: RetryReport<T>)
    ensures 1 <= r.calls <= if maxRetries >= 1 then maxRetries else 1
    ensures forall j :: 0 <= j < r.calls - 1 ==> op(j).Failure?
    ensures r.result.Success? ==> op(r.calls - 1) == r.result && r.retries == r.calls - 1
    ensures r.result.Failure? ==>
              r.calls == (if maxRetries >= 1 then maxRetries else 1) &&
              op(r.calls - 1).Failure? &&
              r.result.error == ExhaustedError(maxRetries, op(r.calls - 1).error) &&
              r.retries == r.calls
    ensures r.delays == r.calls - 1
  {
    var n: nat := if maxRetries >= 1 then maxRetries else 1;
    var k := FirstSuccess(op, n);
    if k < n then RetryReport(op(k), k + 1, k, k)
    else RetryReport(Failure(ExhaustedError(maxRetries, op(n - 1).error)), n, n, n - 1)
  }

  /** The attempt / re-schedule cycle of `retryOperation`, run sequentially. */
  method RetryOperation<T>(op: Operation<T>, maxRetries: int) returns (r: RetryReport<T>)
    ensures r == RetrySession(op, maxRetries)
  {
    ghost var n: nat := if maxRetries >= 1 then maxRetries else 1;
    var retries: nat := 0;
    var delays: nat := 0;
    while true
      invariant retries < n
      invariant forall j :: 0 <= j < retries ==> op(j).Failure?
      invariant delays == retries
      decreases n - retries
    {
      var outcome := op(retries);
      if outcome.Success? {
        FirstSuccessUnique(op, n, retries);
        return RetryReport(outcome, retries + 1, retries, delays);
      }
      retries := retries + 1;
      if retries < maxRetries {
        delays := delays + 1;
      } else {
        FirstSuccessUnique(op, n, n);
        return RetryReport(Failure(ExhaustedError(maxRetries, outcome.error)), retries, retries, delays);
      }
    }
  }

  /** `maxRetries` when the argument is omitted. */
  const DefaultMaxRetries := 3

  /** With the default: at most three invocations and two delays, a first
      success ends the session at once, and an operation that keeps failing
      is invoked three times and the rejection wraps its third error. */
  lemma DefaultRetries<T>(op: Operation<T>)
    ensures RetrySession(op, DefaultMaxRetries).calls <= 3
    ensures RetrySession(op, DefaultMaxRetries).delays <= 2
    ensures op(0).Success? ==> RetrySession(op, DefaultMaxRetries).calls == 1
    ensures (forall j :: 0 <= j < 3 ==> op(j).Failure?) ==>
              RetrySession(op, DefaultMaxRetries).calls == 3 &&
              RetrySession(op, DefaultMaxRetries).result == Failure(ExhaustedError(3, op(2).error))
  {
  }

  /** The two retry helpers of the scripts agree for `maxRetries >= 1`: the
      same invocations, the same delays, the same success, and on exhaustion
      this one wraps the error the other rethrows. */
  lemma RetryHelpersAgree<T>(op: Operation<T>, maxRetries: int)
    requires maxRetries >= 1
    ensures RetrySession(op, maxRetries).calls == ErrorHandling.RetrySession(op, maxRetries).calls
    ensures RetrySession(op, maxRetries).delays == ErrorHandling.RetrySession(op, maxRetries).delays
    ensures RetrySession(op, maxRetries).result.Success? <==>
            ErrorHandling.RetrySession(op, maxRetries).result.Resolved?
    ensures RetrySession(op, maxRetries).result.Failure? ==>
              var last := ErrorHandling.RetrySession(op, maxRetries).result.reason;
              last.Some? && RetrySession(op, maxRetries).result.error == ExhaustedError(maxRetries, last.value)
  {
  }
}

=== FILE: classes.dfy ===
/** 05-classes.js: vehicles with guarded field updates, a bank account whose
    balance never goes negative, a singleton logger and a vehicle factory. */
module Classes {
  import opened JsCore
  import ObjectsArrays

  // ---------------------------------------------------------------
  // Vehicle, Car, ElectricCar

  /** Which class in the `Vehicle` hierarchy an object was built by, with the
      constructor arguments the subclass keeps (as passed, so a missing one is
      `undefined`). */
  datatype VehicleKind =
    | PlainVehicle
    | Car(doors: JsValue)
    | ElectricCar(doors: JsValue, batteryCapacity: JsValue)

  function Max(a: int, b: int): int { if a >= b then a else b }
  function Min(a: int, b: int): int { if a <= b then a else b }

  const FullBattery := 100
  const FirstCarYear := 1886

  /** A `Vehicle`, `Car` or `ElectricCar` object. `year` stays unset until
      the `modelYear` setter accepts one. */
  class Vehicle {
    const brand: string
    const model: string
    const kind: VehicleKind
    var speed: int
    var year: Option<int>
    var isEngineOn: bool
    var batteryLevel: int

    /** An electric car's battery never exceeds 100 (per cent). */
    ghost predicate Valid()
      reads this
    {
      kind.ElectricCar? ==> batteryLevel <= FullBattery
    }

    /** `new Vehicle(brand, model)`. */
    constructor (brand: string, model: string)
      ensures Valid()
      ensures this.brand == brand && this.model == model && kind == PlainVehicle
      ensures speed == 0 && year == None && !isEngineOn
    {
      this.brand := brand;
      this.model := model;
      kind := PlainVehicle;
      speed := 0;
      year := None;
      isEngineOn := false;
      batteryLevel := 0;
    }

    /** `new Car(brand, model, doors)`. */
    constructor MakeCar(brand: string, model: string, doors: JsValue)
      ensures Valid()
      ensures this.brand == brand && this.model == model && kind == Car(doors)
      ensures speed == 0 && year == None && !isEngineOn
    {
      this.brand := brand;
      this.model := model;
      kind := Car(doors);
      speed := 0;
      year := None;
      isEngineOn := false;
      batteryLevel := 0;
    }

    /** `new ElectricCar(brand, model, doors, batteryCapacity)`: the battery
        starts full. */
    constructor MakeElectricCar(brand: string, model: string, doors: JsValue, batteryCapacity: JsValue)
      ensures Valid()
      ensures this.brand == brand && this.model == model && kind == ElectricCar(doors, batteryCapacity)
      ensures speed == 0 && year == None && !isEngineOn && batteryLevel == FullBattery
    {
      this.brand := brand;
      this.model := model;
      kind := ElectricCar(doors, batteryCapacity);
      speed := 0;
      year := None;
      isEngineOn := false;
      batteryLevel := FullBattery;
    }

    /** `accelerate(amount)`: adds `amount` to the speed. */
    method Accelerate(amount: int)
      modifies this`speed
      ensures speed == old(speed) + amount
    {
      speed := speed + amount;
    }

    /** `brake(amount)`: lowers the speed by `amount` but not below 0. */
    method Brake(amount: int)
      modifies this`speed
      ensures speed >= 0
      ensures speed == Max(0, old(speed) - amount)
      ensures old(speed) - amount >= 0 ==> speed == old(speed) - amount
    {
      speed := Max(0, speed - amount);
    }

    /** The `description` getter. */
    function Description(): string
      reads this
    {
      brand + " " + model
    }

    /** The `modelYear` setter: only a year after 1886 is stored. */
    method SetModelYear(year: int)
      modifies this`year
      ensures year > FirstCarYear ==> this.year == Some(year)
      ensures year <= FirstCarYear ==> this.year == old(this.year)
    {
      if year > FirstCarYear {
        this.year := Some(year);
      }
    }

    /** `startEngine()` of Car and ElectricCar (a plain Vehicle has none). */
    method StartEngine()
      requires !kind.PlainVehicle?
      modifies this`isEngineOn
      ensures isEngineOn
    {
      isEngineOn := true;
    }

    /** `chargeBattery(amount)` of ElectricCar: the level goes up by `amount`
        but never above 100. */
    method ChargeBattery(amount: int)
      requires kind.ElectricCar?
      modifies this`batteryLevel
      ensures Valid()
      ensures batteryLevel == Min(FullBattery, old(batteryLevel) + amount)
      ensures batteryLevel <= FullBattery
    {
      batteryLevel := Min(FullBattery, batteryLevel + amount);
    }
  }

  /** The description reads back as brand and model when neither holds a
      space. */
  lemma DescriptionSplits(v: Vehicle)
    requires ' ' !in v.brand && ' ' !in v.model
    ensures ObjectsArrays.Split(v.Description()) == [v.brand, v.model]
  {
    ObjectsArrays.SplitWordThenSpace(v.brand, v.model);
    ObjectsArrays.SplitNoSpace(v.model);
  }

  /** `Vehicle.compareSpeed(v1, v2)`: positive, zero or negative as the first
      vehicle is faster than, as fast as or slower than the second. */
  function CompareSpeed(v1: Vehicle, v2: Vehicle): (d: int)
    reads v1, v2
    ensures d > 0 <==> v1.speed > v2.speed
    ensures d == 0 <==> v1.speed == v2.speed
    ensures d + v2.speed == v1.speed
  {
    v1.speed - v2.speed
  }

  // ---------------------------------------------------------------
  // BankAccount

  datatype TransactionKind = Deposit | Withdrawal

  /** One entry of the transaction history; the date is not modelled. */
  datatype Transaction = Transaction(kind: TransactionKind, amount: int)

  /** What a transaction does to the balance. */
  function Effect(t: Transaction): int
  {
    if t.kind == Deposit then t.amount else -t.amount
  }

  /** Deposits minus withdrawals over a history. */
  function Net(history: seq<Transaction>): int
  {
    if history == [] then 0 else Net(history[..|history| - 1]) + Effect(history[|history| - 1])
  }

  /** Every prefix of the history leaves a non-negative balance. */
  ghost predicate NeverOverdrawn(history: seq<Transaction>)
  {
    forall k :: 0 <= k <= |history| ==> Net(history[..k]) >= 0
  }

  /** Appending a transaction that does not overdraw keeps the whole history
      free of overdrafts. */
  lemma NeverOverdrawnAppend(history: seq<Transaction>, t: Transaction)
    requires NeverOverdrawn(history)
    requires Net(history) + Effect(t) >= 0
    ensures Net(history + [t]) == Net(history) + Effect(t)
    ensures NeverOverdrawn(history + [t])
  {
    var h := history + [t];
    assert h[..|history|] == history;
    forall k | 0 <= k <= |h|
      ensures Net(h[..k]) >= 0
    {
      if k <= |history| {
        assert h[..k] == history[..k];
      } else {
        assert h[..k] == h;
      }
    }
  }

  /** A `BankAccount` with its private `#balance` and `#transactions`. */
  class BankAccount {
    const accountNumber: string
    const ownerName: string
    var balance: int
    var transactions: seq<Transaction>

    /** The balance is the net of the history, every amount recorded is
        positive, and no point of the history was overdrawn. */
    ghost predicate Valid()
      reads this
    {
      && balance >= 0
      && balance == Net(transactions)
      && NeverOverdrawn(transactions)
      && forall i :: 0 <= i < |transactions| ==> transactions[i].amount > 0
    }

    constructor (accountNumber: string, ownerName: string)
      ensures Valid()
      ensures this.accountNumber == accountNumber && this.ownerName == ownerName
      ensures balance == 0 && transactions == []
    {
      this.accountNumber := accountNumber;
      this.ownerName := ownerName;
      balance := 0;
      transactions := [];
    }

    /** `deposit(amount)`: a positive amount raises the balance and records
        one DEPOSIT; any other amount changes nothing. */
    method Deposit(amount: int)
      requires Valid()
      modifies this`balance, this`transactions
      ensures Valid()
      ensures amount > 0 ==>
                balance == old(balance) + amount &&
                transactions == old(transactions) + [Transaction(TransactionKind.Deposit, amount)]
      ensures amount <= 0 ==> balance == old(balance) && transactions == old(transactions)
    {
      if amount > 0 {
        var t := Transaction(TransactionKind.Deposit, amount);
        NeverOverdrawnAppend(transactions, t);
        balance := balance + amount;
        transactions := transactions + [t];
      }
    }

    /** `withdraw(amount)`: succeeds iff `0 < amount <= balance`, lowering the
        balance, recording one WITHDRAWAL and returning `amount`; otherwise
        returns 0 and changes nothing. */
    method Withdraw(amount: int) returns (withdrawn: int)
      requires Valid()
      modifies this`balance, this`transactions
      ensures Valid()
      ensures 0 < amount <= old(balance) ==>
                withdrawn == amount && balance == old(balance) - amount &&
                transactions == old(transactions) + [Transaction(Withdrawal, amount)]
      ensures !(0 < amount <= old(balance)) ==>
                withdrawn == 0 && balance == old(balance) && transactions == old(transactions)
    {
      if 0 < amount <= balance {
        var t := Transaction(Withdrawal, amount);
        NeverOverdrawnAppend(transactions, t);
        balance := balance - amount;
        transactions := transactions + [t];
        withdrawn := amount;
      } else {
        withdrawn := 0;
      }
    }

    method GetBalance() returns (b: int)
      requires Valid()
      ensures b == balance && b >= 0
    {
      b := balance;
    }

    /** `getTransactionHistory()`: a copy of the history. */
    method GetTransactionHistory() returns (history: seq<Transaction>)
      ensures history == transactions
    {
      history := transactions;
    }
  }

  // ---------------------------------------------------------------
  // Logger (singleton)

  class Logger {
    var logs: seq<string>

    constructor ()
      ensures logs == []
    {
      logs := [];
    }

    /** `log(message)`: appends the message; the timestamp is not modelled. */
    method Log(message: string)
      modifies this`logs
      ensures logs == old(logs) + [message]
    {
      logs := logs + [message];
    }

    method GetLogs() returns (copy: seq<string>)
      ensures copy == logs
    {
      copy := logs;
    }
  }

  /** The static property `Logger.instance`, passed explicitly. */
  class LoggerSlot {
    var instance: Logger?

    constructor ()
      ensures instance == null
    {
      instance := null;
    }
  }

  /** `new Logger()`: the first construction creates the instance and records
      it; every later one returns that same instance, logs untouched. */
  method NewLogger(slot: LoggerSlot) returns (logger: Logger)
    modifies slot
    ensures slot.instance == logger
    ensures old(slot.instance) != null ==> logger == old(slot.instance)
    ensures old(slot.instance) == null ==> fresh(logger) && logger.logs == []
  {
    if slot.instance != null {
      return slot.instance;
    }
    logger := new Logger();
    slot.instance := logger;
  }

  /** The demonstration: two constructions give one object, and the entries
      logged through either reference accumulate in call order. */
  method SingletonDemo() returns (same: bool, logs: seq<string>)
    ensures same
    ensures logs == ["First log message", "Second log message"]
  {
    var slot := new LoggerSlot();
    var logger1 := NewLogger(slot);
    var logger2 := NewLogger(slot);
    logger1.Log("First log message");
    logger2.Log("Second log message");
    same := logger1 == logger2;
    logs := logger1.GetLogs();
  }

  // ---------------------------------------------------------------
  // VehicleFactory

  /** The `i`-th rest argument, `undefined` when missing. */
  function Arg(args: seq<JsValue>, i: nat): JsValue
  {
    if i < |args| then args[i] else Undefined
  }

  /** Which class `VehicleFactory.createVehicle` picks for `type`. */
  function VehicleKindFor(vehicleType: string, args: seq<JsValue>): (r: Result<VehicleKind, ErrorValue>)
    ensures vehicleType == "car" ==> r == Ok(Car(Arg(args, 0)))
    ensures vehicleType == "electric" ==> r == Ok(ElectricCar(Arg(args, 0), Arg(args, 1)))
    ensures r.Err? <==> vehicleType != "car" && vehicleType != "electric"
    ensures r.Err? ==> r.error == MakeError("Unknown vehicle type: " + vehicleType)
  {
    if vehicleType == "car" then Ok(Car(Arg(args, 0)))
    else if vehicleType == "electric" then Ok(ElectricCar(Arg(args, 0), Arg(args, 1)))
    else Err(MakeError("Unknown vehicle type: " + vehicleType))
  }

  /** `VehicleFactory.createVehicle(type, brand, model, ...args)`: a new Car
      for 'car', a new ElectricCar for 'electric', a thrown error otherwise. */
  method CreateVehicle(vehicleType: string, brand: string, model: string, args: seq<JsValue>)
    returns (vehicle: Vehicle?, thrown: Option<ErrorValue>)
    ensures VehicleKindFor(vehicleType, args).Ok? ==>
              vehicle != null && fresh(vehicle) && vehicle.Valid() && thrown == None &&
              vehicle.kind == VehicleKindFor(vehicleType, args).value &&
              vehicle.brand == brand && vehicle.model == model && vehicle.speed == 0 &&
              vehicle.year == None && !vehicle.isEngineOn
    ensures VehicleKindFor(vehicleType, args).Ok? && vehicleType == "electric" ==>
              vehicle != null && vehicle.batteryLevel == FullBattery
    ensures VehicleKindFor(vehicleType, args).Err? ==>
              vehicle == null && thrown == Some(VehicleKindFor(vehicleType, args).error)
  {
    var chosen := VehicleKindFor(vehicleType, args);
    if chosen.Err? {
      return null, Some(chosen.error);
    }
    var kind := chosen.value;
    if kind.Car? {
      vehicle := new Vehicle.MakeCar(brand, model, kind.doors);
    } else {
      vehicle := new Vehicle.MakeElectricCar(brand, model, kind.doors, kind.batteryCapacity);
    }
    thrown := None;
  }
}

=== FILE: error_handling.dfy ===
/** 09-error-handling.js: checked division, the ValidationError type and the
    validators that throw it, the append-only error log, and the recovery
    strategies (retry, fallback, circuit breaker). */
module ErrorHandling {
  import opened JsCore

  // ---------------------------------------------------------------
  // divideNumbers

  /** The operands of a division that went through; the floating-point
      quotient itself is not modelled. */
  datatype Quotient = Quotient(dividend: int, divisor: int)

  datatype DivisionResult = Divided(quotient: Quotient) | Thrown(error: ErrorValue)

  const DivisionByZero := ErrorValue("Error", "Division by zero is not allowed")
  const NotNumbers := ErrorValue("TypeError", "Both arguments must be numbers")

  /** `divideNumbers(a, b)`: the zero check (`b === 0`) comes first, so a zero
      divisor is reported as division by zero whatever `a` is; only then are
      both operands required to be numbers. */
  function DivideNumbers(a: JsValue, b: JsValue): (r: DivisionResult)
    ensures b == Num(0) ==> r == Thrown(DivisionByZero)
    ensures b != Num(0) && !(a.Num? && b.Num?) ==> r == Thrown(NotNumbers)
    ensures r.Divided? <==> a.Num? && b.Num? && b.n != 0
    ensures r.Divided? ==> r.quotient == Quotient(a.n, b.n)
  {
    if b == Num(0) then Thrown(DivisionByZero)
    else if !a.Num? || !b.Num? then Thrown(NotNumbers)
    else Divided(Quotient(a.n, b.n))
  }

  // ---------------------------------------------------------------
  // ValidationError

  /** One `{field, message}` record collected by validateInput. */
  datatype FieldError = FieldError(field: string, message: string)

  /** The `field` of a ValidationError: a field name (validateUser) or the
      array of records collected by validateInput. */
  datatype ErrorField = Field(name: string) | FieldErrors(errors: seq<FieldError>)

  /** A ValidationError; its `name` is always "ValidationError". The
      timestamp is not modelled. */
  datatype ValidationError = ValidationError(message: string, field: ErrorField)

  /** `${array}` of `k` plain objects: "[object Object]" joined by commas. */
  function ObjectListText(k: nat): (s: string)
    ensures |s| == if k == 0 then 0 else 16 * k - 1
    ensures forall i :: 0 <= i < k ==> s[16 * i..16 * i + 15] == "[object Object]"
    ensures forall i :: 0 <= i < k - 1 ==> s[16 * i + 15] == ','
  {
    if k == 0 then ""
    else if k == 1 then "[object Object]"
    else
      var prev := ObjectListText(k - 1);
      ObjectListAppend(prev, k - 1);
      prev + ",[object Object]"
  }

  /** Appending ",[object Object]" to the text of `k >= 1` objects gives the
      text of `k + 1`. */
  lemma ObjectListAppend(prev: string, k: nat)
    requires k >= 1 && |prev| == 16 * k - 1
    requires forall i :: 0 <= i < k ==> prev[16 * i..16 * i + 15] == "[object Object]"
    requires forall i :: 0 <= i < k - 1 ==> prev[16 * i + 15] == ','
    ensures forall i :: 0 <= i < k + 1 ==> (prev + ",[object Object]")[16 * i..16 * i + 15] == "[object Object]"
    ensures forall i :: 0 <= i < k ==> (prev + ",[object Object]")[16 * i + 15] == ','
  {
    var s := prev + ",[object Object]";
    forall i | 0 <= i < k + 1
      ensures s[16 * i..16 * i + 15] == "[object Object]"
    {
      if i < k {
        assert s[16 * i..16 * i + 15] == prev[16 * i..16 * i + 15];
      } else {
        assert s[16 * i..16 * i + 15] == ",[object Object]"[1..];
      }
    }
    forall i | 0 <= i < k
      ensures s[16 * i + 15] == ','
    {
      if i < k - 1 {
        assert s[16 * i + 15] == prev[16 * i + 15];
      }
    }
  }

  function FieldText(f: ErrorField): string
  {
    match f
    case Field(name) => name
    case FieldErrors(errors) => ObjectListText(|errors|)
  }

  const ValidationErrorPrefix := "ValidationError: "

  /** `ValidationError.toString()`: "ValidationError: <message> (field: <field>)".
      The message can be read back at a fixed offset. */
  function ValidationErrorText(e: ValidationError): (s: string)
    ensures |s| == |ValidationErrorPrefix| + |e.message| + |" (field: "| + |FieldText(e.field)| + 1
    ensures s[..|ValidationErrorPrefix|] == ValidationErrorPrefix
    ensures s[|ValidationErrorPrefix|..|ValidationErrorPrefix| + |e.message|] == e.message
    ensures s[|ValidationErrorPrefix| + |e.message|..|s| - 1] == " (field: " + FieldText(e.field)
    ensures s[|s| - 1] == ')'
  {
    ValidationErrorPrefix + e.message + " (field: " + FieldText(e.field) + ")"
  }

  // ---------------------------------------------------------------
  // validateInput

  /** A validation rule: the field it is about and its `validate` function,
      which either returns (None) or throws an Error with a message (Some). */
  datatype Rule<!I> = Rule(field: string, validate: I -> Option<string>)

  /** The record a rule contributes: none when it passes, one when it throws. */
  function RuleErrors<I>(input: I, rule: Rule<I>): (errs: seq<FieldError>)
    ensures |errs| <= 1
    ensures errs == [] <==> rule.validate(input).None?
    ensures rule.validate(input).Some? ==> errs == [FieldError(rule.field, rule.validate(input).value)]
  {
    match rule.validate(input)
    case None => []
    case Some(m) => [FieldError(rule.field, m)]
  }

  /** The records collected by validateInput over `rules`, in rule order. */
  function CollectErrors<I>(input: I, rules: seq<Rule<I>>): (errs: seq<FieldError>)
    ensures |errs| <= |rules|
    decreases |rules|
  {
    if rules == [] then []
    else CollectErrors(input, rules[..|rules| - 1]) + RuleErrors(input, rules[|rules| - 1])
  }

  /** No record is collected exactly when every rule passes. */
  lemma {:induction false} CollectErrorsEmpty<I>(input: I, rules: seq<Rule<I>>)
    ensures CollectErrors(input, rules) == [] <==>
            forall i :: 0 <= i < |rules| ==> rules[i].validate(input).None?
    decreases |rules|
  {
    if rules != [] {
      var init := rules[..|rules| - 1];
      CollectErrorsEmpty(input, init);
      assert forall i :: 0 <= i < |init| ==> init[i] == rules[i];
    }
  }

  /** The records of `[r] + rest` are those of `r` followed by those of `rest`:
      the first failing rule contributes the first record. */
  lemma {:induction false} CollectErrorsCons<I>(input: I, r: Rule<I>, rest: seq<Rule<I>>)
    ensures CollectErrors(input, [r] + rest) == RuleErrors(input, r) + CollectErrors(input, rest)
    decreases |rest|
  {
    if rest == [] {
      assert ([r] + rest)[..0] == [];
    } else {
      var init := rest[..|rest| - 1];
      assert ([r] + rest)[..|rest|] == [r] + init;
      CollectErrorsCons(input, r, init);
    }
  }

  /** What validateInput does: return true, or throw a ValidationError. */
  datatype Verdict = Passed | Invalid(error: ValidationError)

  const InputValidationFailed := "Input validation failed"

  /** `validateInput(input, rules)`: runs every rule, collects one record per
      failing rule in rule order, and throws iff at least one rule failed. */
  method ValidateInput<I>(input: I, rules: seq<Rule<I>>) returns (r: Verdict)
    ensures r.Passed? <==> forall i :: 0 <= i < |rules| ==> rules[i].validate(input).None?
    ensures r.Invalid? ==>
              r.error == ValidationError(InputValidationFailed, FieldErrors(CollectErrors(input, rules)))
  {
    var errors: seq<FieldError> := [];
    for i := 0 to |rules|
      invariant errors == CollectErrors(input, rules[..i])
    {
      assert rules[..i + 1][..i] == rules[..i];
      match rules[i].validate(input)
      case None =>
      case Some(m) =>
        errors := errors + [FieldError(rules[i].field, m)];
    }
    assert rules[..|rules|] == rules;
    CollectErrorsEmpty(input, rules);
    if |errors| > 0 {
      r := Invalid(ValidationError(InputValidationFailed, FieldErrors(errors)));
    } else {
      r := Passed;
    }
  }

  // ---------------------------------------------------------------
  // validateUser

  /** A user record. A missing `name` or `email` is modelled as "" (both are
      falsy); a missing `age` is None. */
  datatype User = User(name: string, email: string, age: Option<int>)

  const NameRequired := ValidationError("Name is required", Field("name"))
  const EmailRequired := ValidationError("Valid email is required", Field("email"))
  const TooYoung := ValidationError("Must be 18 or older", Field("age"))

  /** `validateUser(user)`: the first failing check, in the order name, email,
      age, or None when the user passes. The age check fires only for a truthy
      (present, non-zero) age under 18. */
  function ValidateUser(u: User): (r: Option<ValidationError>)
    ensures r.None? ==> u.name != "" && '@' in u.email
    ensures r == Some(NameRequired) <==> u.name == ""
    ensures r == Some(EmailRequired) <==> u.name != "" && '@' !in u.email
    ensures r.Some? ==> r.value == NameRequired || r.value == EmailRequired || r.value == TooYoung
  {
    if u.name == "" then Some(NameRequired)
    else if u.email == "" || '@' !in u.email then Some(EmailRequired)
    else if u.age.Some? && u.age.value != 0 && u.age.value < 18 then Some(TooYoung)
    else None
  }

  /** validateUser's three checks written as validateInput rules. */
  function UserRules(): seq<Rule<User>>
  {
    [ Rule("name", (u: User) => if u.name == "" then Some(NameRequired.message) else None),
      Rule("email", (u: User) => if u.email == "" || '@' !in u.email then Some(EmailRequired.message) else None),
      Rule("age", (u: User) =>
             if u.age.Some? && u.age.value != 0 && u.age.value < 18 then Some(TooYoung.message) else None) ]
  }

  /** validateUser reports exactly the first record that validateInput would
      collect with the same three checks, and nothing iff it collects none. */
  lemma ValidateUserReportsFirstFailure(u: User)
    ensures ValidateUser(u).None? <==> CollectErrors(u, UserRules()) == []
    ensures ValidateUser(u).Some? ==>
              var first := CollectErrors(u, UserRules())[0];
              ValidateUser(u).value == ValidationError(first.message, Field(first.field))
  {
    var rs := UserRules();
    CollectErrorsCons(u, rs[0], rs[1..]);
    CollectErrorsCons(u, rs[1], rs[2..]);
    CollectErrorsCons(u, rs[2], rs[3..]);
    assert [rs[0]] + rs[1..] == rs;
    assert [rs[1]] + rs[2..] == rs[1..];
    assert [rs[2]] + rs[3..] == rs[2..];
    assert rs[3..] == [];
  }

  // ---------------------------------------------------------------
  // ErrorLogger

  /** One log entry: the error's message and name and the caller's context.
      The timestamp and stack are not modelled. */
  datatype LogEntry = LogEntry(message: string, name: string, context: map<string, JsValue>)

  class ErrorLogger {
    var logs: seq<LogEntry>

    constructor ()
      ensures logs == []
    {
      logs := [];
    }

    /** `log(error, context)`: appends exactly one entry and returns it. */
    method Log(error: ErrorValue, context: map<string, JsValue>) returns (entry: LogEntry)
      modifies this
      ensures entry == LogEntry(error.message, error.name, context)
      ensures logs == old(logs) + [entry]
    {
      entry := LogEntry(error.message, error.name, context);
      logs := logs + [entry];
    }

    /** `getLogs()`: a copy equal to the log. */
    method GetLogs() returns (copy: seq<LogEntry>)
      ensures copy == logs
    {
      copy := logs;
    }

    /** `clearLogs()`: empties the log. */
    method ClearLogs()
      modifies this
      ensures logs == []
    {
      logs := [];
    }
  }

  // ---------------------------------------------------------------
  // retryOperation

  /** How a retry session ends: the first success, or a throw of the last
      error; `Rejected(None)` is `throw undefined`, which happens when no
      attempt is made at all. */
  datatype Settled<T> = Resolved(value: T) | Rejected(reason: Option<ErrorValue>)

  /** A retry session: how it ended, how many times the operation was invoked
      and how many delays were waited. */
  datatype RetryReport<T> = RetryReport(result: Settled<T>, calls: nat, delays: nat)

  /** The session `retryOperation(op, maxRetries)` runs: at most `maxRetries`
      invocations, the first success returned at once, the last error thrown
      when all fail, and a delay between consecutive attempts only. */
  function RetrySession<T>(op: Operation<T>, maxRetries: int): (r: RetryReport<T>)
    ensures r.calls <= if maxRetries > 0 then maxRetries else 0
    ensures forall j :: 0 <= j < r.calls - 1 ==> op(j).Failure?
    ensures r.result.Resolved? ==> r.calls >= 1 && op(r.calls - 1) == Success(r.result.value)
    ensures r.result.Rejected? ==>
              r.calls == (if maxRetries > 0 then maxRetries else 0) &&
              (r.calls == 0 ==> r.result.reason == None) &&
              (r.calls > 0 ==> op(r.calls - 1).Failure? && r.result.reason == Some(op(r.calls - 1).error))
    ensures r.delays == if r.calls == 0 then 0 else r.calls - 1
  {
    var n: nat := if maxRetries > 0 then maxRetries else 0;
    var k := FirstSuccess(op, n);
    if k < n then RetryReport(Resolved(op(k).value), k + 1, k)
    else if n == 0 then RetryReport(Rejected(None), 0, 0)
    else RetryReport(Rejected(Some(op(n - 1).error)), n, n - 1)
  }

  /** `retryOperation(operation, maxRetries, delay)`: the loop of attempts. */
  method RetryOperation<T>(op: Operation<T>, maxRetries: int) returns (r: RetryReport<T>)
    ensures r == RetrySession(op, maxRetries)
  {
    var lastError: Option<ErrorValue> := None;
    var delays: nat := 0;
    var i: nat := 0;
    while i < maxRetries
      invariant maxRetries > 0 ==> i <= maxRetries
      invariant maxRetries <= 0 ==> i == 0
      invariant forall j :: 0 <= j < i ==> op(j).Failure?
      invariant lastError == if i == 0 then None else Some(op(i - 1).error)
      invariant delays == if i == 0 then 0 else if i == maxRetries then i - 1 else i
      decreases maxRetries - i
    {
      match op(i)
      case Success(v) =>
        FirstSuccessUnique(op, maxRetries, i);
        return RetryReport(Resolved(v), i + 1, i);
      case Failure(e) =>
        lastError := Some(e);
        if i < maxRetries - 1 {
          delays := delays + 1;
        }
      i := i + 1;
    }
    FirstSuccessUnique(op, i, i);
    r := RetryReport(Rejected(lastError), i, delays);
  }

  /** `maxRetries` when the argument is omitted. */
  const DefaultMaxRetries := 3

  /** With the default: at most three invocations and two delays, a first
      success ends the session at once, and an operation that keeps failing
      is invoked three times and its third error is thrown. */
  lemma DefaultRetries<T>(op: Operation<T>)
    ensures RetrySession(op, DefaultMaxRetries).calls <= 3
    ensures RetrySession(op, DefaultMaxRetries).delays <= 2
    ensures op(0).Success? ==> RetrySession(op, DefaultMaxRetries).calls == 1
    ensures (forall j :: 0 <= j < 3 ==> op(j).Failure?) ==>
              RetrySession(op, DefaultMaxRetries).calls == 3 &&
              RetrySession(op, DefaultMaxRetries).result == Rejected(Some(op(2).error))
  {
  }

  // ---------------------------------------------------------------
  // getDataWithFallback

  /** How getDataWithFallback ends and whether it invoked the fallback. */
  datatype FallbackReport<T> = FallbackReport(result: Outcome<T>, fallbackInvoked: bool)

  /** `getDataWithFallback(primary, fallback)`: the fallback runs only when the
      primary source fails; the combined error names both messages. */
  function GetDataWithFallback<T>(primary: Outcome<T>, fallback: Outcome<T>): (r: FallbackReport<T>)
    ensures r.fallbackInvoked <==> primary.Failure?
    ensures r.result.Success? <==> primary.Success? || fallback.Success?
    ensures primary.Success? ==> r.result == primary
    ensures primary.Failure? && fallback.Success? ==> r.result == fallback
    ensures r.result.Failure? ==>
              r.result.error == MakeError("Both sources failed: " + primary.error.message + ", " +
                                          fallback.error.message)
  {
    match primary
    case Success(_) => FallbackReport(primary, false)
    case Failure(e1) =>
      match fallback
      case Success(_) => FallbackReport(fallback, true)
      case Failure(e2) =>
        FallbackReport(Failure(MakeError("Both sources failed: " + e1.message + ", " + e2.message)), true)
  }

  // ---------------------------------------------------------------
  // CircuitBreaker

  datatype BreakerState = Closed | Open | HalfOpen

  const CircuitOpen := MakeError("Circuit breaker is OPEN")

  /** A circuit breaker around an operation. Each call is given the clock
      reading `now` that `Date.now()` returns when the call starts, the
      operation's outcome for that call, and the reading `settledAt` that
      `Date.now()` returns in `onFailure` once the operation has failed. The
      outcome and `settledAt` are used only if the breaker lets the call
      through. */
  class CircuitBreaker {
    const failureThreshold: int
    const resetTimeout: int
    var failureCount: nat
    var state: BreakerState
    var nextAttempt: int

    /** Between calls the breaker is CLOSED below its threshold (or with no
        failures at all) or OPEN at or above it after at least one failure;
        HALF_OPEN only lasts during a trial call. */
    ghost predicate Valid()
      reads this
    {
      && state != HalfOpen
      && (state == Closed ==> failureCount == 0 || failureCount < failureThreshold)
      && (state == Open ==> failureCount >= 1 && failureCount >= failureThreshold)
    }

    constructor (failureThreshold: int, resetTimeout: int)
      ensures Valid()
      ensures this.failureThreshold == failureThreshold && this.resetTimeout == resetTimeout
      ensures failureCount == 0 && state == Closed && nextAttempt == 0
    {
      this.failureThreshold := failureThreshold;
      this.resetTimeout := resetTimeout;
      failureCount := 0;
      state := Closed;
      nextAttempt := 0;
    }

    /** `new CircuitBreaker(operation)` with the default threshold 3 and
        reset timeout 10000 ms. */
    constructor WithDefaults()
      ensures Valid()
      ensures failureThreshold == 3 && resetTimeout == 10000
      ensures failureCount == 0 && state == Closed && nextAttempt == 0
    {
      failureThreshold := 3;
      resetTimeout := 10000;
      failureCount := 0;
      state := Closed;
      nextAttempt := 0;
    }

    /** `onSuccess()`: whatever the state before, the breaker is left valid. */
    method OnSuccess()
      modifies this
      ensures Valid()
      ensures failureCount == 0 && state == Closed && nextAttempt == old(nextAttempt)
    {
      failureCount := 0;
      state := Closed;
    }

    /** `onFailure()`, at clock reading `now`. It keeps a valid breaker
        valid; inside a trial call (HALF_OPEN) the breaker is valid again
        once the count reaches the threshold, which it does because the
        circuit was OPEN before the trial. */
    method OnFailure(now: int)
      modifies this
      ensures old(Valid()) ==> Valid()
      ensures failureCount >= failureThreshold ==> Valid()
      ensures failureCount == old(failureCount) + 1
      ensures failureCount >= failureThreshold ==> state == Open && nextAttempt == now + resetTimeout
      ensures failureCount < failureThreshold ==> state == old(state) && nextAttempt == old(nextAttempt)
    {
      failureCount := failureCount + 1;
      if failureCount >= failureThreshold {
        state := Open;
        nextAttempt := now + resetTimeout;
      }
    }

    /** `call(...args)` started at clock reading `now`; `outcome` is what the
        operation does if it is invoked, and `settledAt` the clock reading
        when it has settled. While OPEN and `now <= nextAttempt` the call is
        refused without invoking the operation; once `now > nextAttempt` it
        goes HALF_OPEN and tries the operation. A failure that reaches the
        threshold opens the circuit until `settledAt + resetTimeout`. */
    method Call<T>(outcome: Outcome<T>, now: int, settledAt: int) returns (r: Outcome<T>, invoked: bool)
      requires Valid()
      modifies this
      ensures Valid()
      ensures invoked <==> !(old(state) == Open && now <= old(nextAttempt))
      ensures !invoked ==>
                r == Failure(CircuitOpen) && state == old(state) &&
                failureCount == old(failureCount) && nextAttempt == old(nextAttempt)
      ensures invoked ==> r == outcome
      ensures invoked && outcome.Success? ==>
                failureCount == 0 && state == Closed && nextAttempt == old(nextAttempt)
      ensures invoked && outcome.Failure? ==> failureCount == old(failureCount) + 1
      ensures invoked && outcome.Failure? && failureCount >= failureThreshold ==>
                state == Open && nextAttempt == settledAt + resetTimeout
      ensures invoked && outcome.Failure? && failureCount < failureThreshold ==>
                state == Closed && nextAttempt == old(nextAttempt)
    {
      if state == Open {
        if now > nextAttempt {
          state := HalfOpen;
        } else {
          return Failure(CircuitOpen), false;
        }
      }
      invoked := true;
      r := outcome;
      match outcome
      case Success(_) =>
        OnSuccess();
      case Failure(_) =>
        OnFailure(settledAt);
    }
  }

  /** With a threshold of at least one, a CLOSED breaker is below it. */
  lemma ClosedBelowThreshold(b: CircuitBreaker)
    requires b.Valid() && b.failureThreshold >= 1 && b.state == Closed
    ensures b.failureCount < b.failureThreshold
  {
  }
}

=== FILE: es6_features.dfy ===
/** 10-es6-features.js: the `highlight` tag function, the defaulting
    functions `greetPerson` and `createUser`, and the destructuring swap.
    `sumAll` has the same body as `sum` and is Functions.Sum. */
module Es6Features {
  import opened JsCore
  import Functions

  // ---------------------------------------------------------------
  // highlight (tagged template)

  const StrongOpen := "<strong>"
  const StrongClose := "</strong>"

  /** What follows the `i`-th literal piece: `values[i]` wrapped in
      `<strong>` when it is truthy, nothing otherwise. An index past the end
      of `values` reads `undefined`, which is falsy. */
  function Markup(values: seq<JsValue>, i: nat): (m: string)
    ensures i < |values| && Truthy(values[i]) ==> m == StrongOpen + ToText(values[i]) + StrongClose
    ensures !(i < |values| && Truthy(values[i])) ==> m == ""
  {
    if i < |values| && Truthy(values[i]) then StrongOpen + ToText(values[i]) + StrongClose else ""
  }

  /** `highlight(strings, ...values)`: `strings.reduce` from the left, starting
      from '', appending each piece and then its markup. */
  function Highlight(strings: seq<string>, values: seq<JsValue>): (r: string)
    ensures |r| >= |Concat(strings)|
    decreases |strings|
  {
    if strings == [] then ""
    else
      var n := |strings| - 1;
      Highlight(strings[..n], values) + strings[n] + Markup(values, n)
  }

  /** Reference definition: piece `i`, its markup, then the rest. */
  function HighlightFrom(strings: seq<string>, values: seq<JsValue>, i: nat): string
    requires i <= |strings|
    decreases |strings| - i
  {
    if i == |strings| then "" else strings[i] + Markup(values, i) + HighlightFrom(strings, values, i + 1)
  }

  /** The left fold over a prefix, followed by the reference over the rest,
      is the whole output. */
  lemma {:induction false} HighlightSplit(strings: seq<string>, values: seq<JsValue>, k: nat)
    requires k <= |strings|
    ensures Highlight(strings[..k], values) + HighlightFrom(strings, values, k) == Highlight(strings, values)
    decreases |strings| - k
  {
    if k == |strings| {
      HighlightWhole(strings, values);
    } else {
      HighlightSplit(strings, values, k + 1);
      HighlightSplitStep(strings, values, k);
    }
  }

  /** One step of HighlightSplit: moving piece `k` from the reference part
      into the prefix leaves the output unchanged. */
  lemma HighlightSplitStep(strings: seq<string>, values: seq<JsValue>, k: nat)
    requires k < |strings|
    ensures Highlight(strings[..k], values) + HighlightFrom(strings, values, k)
         == Highlight(strings[..k + 1], values) + HighlightFrom(strings, values, k + 1)
  {
    var a, b, c := Highlight(strings[..k], values), strings[k] + Markup(values, k), HighlightFrom(strings, values, k + 1);
    calc {
      a + HighlightFrom(strings, values, k);
      a + (b + c);
      (a + b) + c;
      { HighlightPrefixStep(strings, values, k); }
      Highlight(strings[..k + 1], values) + c;
    }
  }

  /** The prefix of full length is the whole list of pieces. */
  lemma HighlightWhole(strings: seq<string>, values: seq<JsValue>)
    ensures Highlight(strings[..|strings|], values) + HighlightFrom(strings, values, |strings|) == Highlight(strings, values)
  {
    assert strings[..|strings|] == strings;
  }

  /** One more piece of the prefix adds that piece and its markup. */
  lemma HighlightPrefixStep(strings: seq<string>, values: seq<JsValue>, k: nat)
    requires k < |strings|
    ensures Highlight(strings[..k + 1], values) == Highlight(strings[..k], values) + (strings[k] + Markup(values, k))
  {
    var prefix := strings[..k + 1];
    assert prefix[..k] == strings[..k];
  }

  /** For every `i` in order the output holds `strings[i]` followed by the
      markup of `values[i]`. */
  lemma HighlightInterleaves(strings: seq<string>, values: seq<JsValue>)
    ensures Highlight(strings, values) == HighlightFrom(strings, values, 0)
  {
    HighlightSplit(strings, values, 0);
    assert strings[..0] == [];
  }

  /** The literal pieces joined without separators. */
  function Concat(strings: seq<string>): string
    decreases |strings|
  {
    if strings == [] then "" else Concat(strings[..|strings| - 1]) + strings[|strings| - 1]
  }

  /** A value that is falsy (0, "", null, undefined, false) leaves no trace:
      the output is the same as with `undefined` in its place. */
  lemma {:induction false} FalsyValueDropped(strings: seq<string>, values: seq<JsValue>, i: nat)
    requires i < |values| && !Truthy(values[i])
    ensures Highlight(strings, values) == Highlight(strings, values[i := Undefined])
    decreases |strings|
  {
    if strings != [] {
      var n := |strings| - 1;
      FalsyValueDropped(strings[..n], values, i);
      assert Markup(values, n) == Markup(values[i := Undefined], n);
    }
  }

  /** When no value is truthy, in particular when there are none, the output
      is the literal pieces joined. */
  lemma {:induction false} NoTruthyValues(strings: seq<string>, values: seq<JsValue>)
    requires forall i :: 0 <= i < |values| ==> !Truthy(values[i])
    ensures Highlight(strings, values) == Concat(strings)
    decreases |strings|
  {
    if strings != [] {
      NoTruthyValues(strings[..|strings| - 1], values);
    }
  }

  /** A template with no substitutions is passed one literal piece and no
      values, and comes back unchanged. */
  lemma SingleLiteral(s: string)
    ensures Highlight([s], []) == s
  {
    assert [s][..0] == [];
  }

  /** A tag function always receives one literal piece more than values, so
      the last piece is never followed by markup. */
  lemma LastPieceBare(strings: seq<string>, values: seq<JsValue>)
    requires |strings| == |values| + 1
    ensures Highlight(strings, values) == Highlight(strings[..|values|], values) + strings[|values|]
  {
  }

  /** A template with two substitutions: the three pieces, each of the
      first two followed by the markup of its value. */
  lemma HighlightTwoValues(a: string, b: string, c: string, v: JsValue, w: JsValue)
    ensures Highlight([a, b, c], [v, w]) == a + Markup([v, w], 0) + (b + Markup([v, w], 1) + c)
  {
    var strings, values := [a, b, c], [v, w];
    HighlightInterleaves(strings, values);
    assert HighlightFrom(strings, values, 2) == c;
    assert HighlightFrom(strings, values, 1) == b + Markup(values, 1) + c;
  }

  /** The text of the number 30. */
  lemma ThirtyText()
    ensures ToText(Num(30)) == "30"
  {
    assert DigitChar(3) == '3' && DigitChar(0) == '0';
    assert NatToString(30) == NatToString(3) + [DigitChar(0)];
  }

  /** highlight`Hello ${firstName}, you are ${age} years old.` */
  lemma HighlightDemo()
    ensures Highlight(["Hello ", ", you are ", " years old."], [Str("John"), Num(30)])
         == "Hello " + (StrongOpen + "John" + StrongClose) + (", you are " + (StrongOpen + "30" + StrongClose) + " years old.")
  {
    var values := [Str("John"), Num(30)];
    HighlightTwoValues("Hello ", ", you are ", " years old.", Str("John"), Num(30));
    ThirtyText();
    assert Markup(values, 0) == StrongOpen + "John" + StrongClose;
    assert Markup(values, 1) == StrongOpen + "30" + StrongClose;
  }

  // ---------------------------------------------------------------
  // greetPerson (default parameters)

  const DefaultName := "Guest"

  /** A default parameter replaces `undefined` only; `null` is kept. */
  function OrDefault(v: JsValue, default: JsValue): (r: JsValue)
    ensures v.Undefined? ==> r == default
    ensures !v.Undefined? ==> r == v
  {
    if v.Undefined? then default else v
  }

  /** `greetPerson(name = "Guest", greeting = "Hello")`: "<greeting>, <name>!". */
  function GreetPerson(name: JsValue, greeting: JsValue): (r: string)
    ensures |r| >= 3 && r[|r| - 1] == '!'
    ensures greeting.Undefined? ==> |r| >= 8 && r[..7] == "Hello, "
    ensures name.Undefined? ==> |r| >= 8 && r[|r| - 6..] == "Guest!"
  {
    ToText(OrDefault(greeting, Str(Functions.DefaultGreeting))) + ", " + ToText(OrDefault(name, Str(DefaultName))) + "!"
  }

  /** With string arguments, greetPerson agrees with createGreeting of
      03-functions.js; an omitted name reads "Guest". */
  lemma GreetPersonIsCreateGreeting(name: string, greeting: string)
    ensures GreetPerson(Str(name), Str(greeting)) == Functions.CreateGreeting(name, Some(greeting))
    ensures GreetPerson(Str(name), Undefined) == Functions.CreateGreeting(name, None)
    ensures GreetPerson(Undefined, Undefined) == Functions.CreateGreeting(DefaultName, None)
  {
  }

  /** The three calls of the demonstration. */
  lemma GreetPersonDemo()
    ensures GreetPerson(Undefined, Undefined) == "Hello, Guest!"
    ensures GreetPerson(Str("John"), Undefined) == "Hello, John!"
    ensures GreetPerson(Str("Alice"), Str("Good morning")) == "Good morning, Alice!"
  {
  }

  // ---------------------------------------------------------------
  // createUser (destructuring with defaults)

  /** The fields read from the argument object; `Undefined` when absent. */
  datatype UserOptions = UserOptions(name: JsValue, age: JsValue, isAdmin: JsValue)

  /** The object createUser returns. */
  datatype NewUser = NewUser(name: JsValue, age: JsValue, isAdmin: JsValue)

  /** The empty object `{}`. */
  const NoOptions := UserOptions(Undefined, Undefined, Undefined)

  /** `createUser()`: every field at its default. */
  const DefaultUser := NewUser(Str("Anonymous"), Num(18), Bool(false))

  /** `createUser({ name = "Anonymous", age = 18, isAdmin = false } = {})`;
      `None` is a call without an argument. */
  function CreateUser(options: Option<UserOptions>): (u: NewUser)
    ensures options.None? ==> u == DefaultUser
    ensures options.Some? ==>
              u.name == OrDefault(options.value.name, DefaultUser.name) &&
              u.age == OrDefault(options.value.age, DefaultUser.age) &&
              u.isAdmin == OrDefault(options.value.isAdmin, DefaultUser.isAdmin)
  {
    var o := if options.Some? then options.value else NoOptions;
    NewUser(OrDefault(o.name, DefaultUser.name), OrDefault(o.age, DefaultUser.age), OrDefault(o.isAdmin, DefaultUser.isAdmin))
  }

  /** Supplying one field overrides that field only; supplying `{}` is the
      same as supplying nothing. */
  lemma CreateUserOverridesOnly(v: JsValue)
    requires !v.Undefined?
    ensures CreateUser(Some(NoOptions)) == CreateUser(None)
    ensures CreateUser(Some(NoOptions.(name := v))) == DefaultUser.(name := v)
    ensures CreateUser(Some(NoOptions.(age := v))) == DefaultUser.(age := v)
    ensures CreateUser(Some(NoOptions.(isAdmin := v))) == DefaultUser.(isAdmin := v)
  {
  }

  /** `createUser({ name: "Bob" })`. */
  lemma CreateUserDemo()
    ensures CreateUser(Some(NoOptions.(name := Str("Bob")))) == NewUser(Str("Bob"), Num(18), Bool(false))
  {
  }

  // ---------------------------------------------------------------
  // swapping with array destructuring

  /** The destructuring assignment `[a, b] = [b, a]` on any two values. */
  method Swap<T>(a: T, b: T) returns (a': T, b': T)
    ensures a' == b && b' == a
  {
    a', b' := a, b;
    a', b' := b', a';
  }

  /** Swapping twice restores both variables. */
  method SwapTwice<T>(a: T, b: T) returns (a': T, b': T)
    ensures a' == a && b' == b
  {
    a', b' := Swap(a, b);
    a', b' := Swap(a', b');
  }

  /** `sumAll()` is 0 and `sumAll(1, 2, 3, 4, 5)` is 15. */
  lemma SumAllDemo()
    ensures Functions.Sum([]) == 0
    ensures Functions.Sum([1, 2, 3, 4, 5]) == 15
  {
    var xs := [1, 2, 3, 4, 5];
    assert xs[..4] == [1, 2, 3, 4] && [1, 2, 3, 4][..3] == [1, 2, 3];
    assert [1, 2, 3][..2] == [1, 2] && [1, 2][..1] == [1] && [1][..0] == [];
    assert Functions.Sum([1]) == 1;
    assert Functions.Sum([1, 2]) == 3;
    assert Functions.Sum([1, 2, 3]) == 6;
    assert Functions.Sum([1, 2, 3, 4]) == 10;
  }
}

=== FILE: functions.dfy ===
/** 03-functions.js: recursion, rest parameters, higher-order functions, a
    truthiness-keyed memoizer, a generator and default parameters. The
    closure counter of this script is AdvancedConcepts.Counter without
    `reset`. */
module Functions {
  import opened JsCore

  // ---------------------------------------------------------------
  // factorial

  /** `factorial(n)`: 1 for `n <= 1`, otherwise `n * factorial(n - 1)`. */
  function Factorial(n: int): (r: int)
    ensures r >= 1
    ensures n >= 1 ==> r >= n
    decreases n
  {
    if n <= 1 then 1 else n * Factorial(n - 1)
  }

  /** `factorial(n) / k` for a `k` between 1 and `n`. */
  function Cofactor(n: int, k: int): int
    requires 1 <= k <= n
    decreases n
  {
    if k == n then Factorial(n - 1) else n * Cofactor(n - 1, k)
  }

  /** Every number from 1 to `n` divides `factorial(n)`. */
  lemma {:induction false} FactorialDivisible(n: int, k: int)
    requires 1 <= k <= n
    ensures Factorial(n) == k * Cofactor(n, k)
    decreases n
  {
    if k < n {
      FactorialDivisible(n - 1, k);
      var f, c := Factorial(n - 1), Cofactor(n - 1, k);
      assert Factorial(n) == n * f;
      assert f == k * c;
      Regroup(n, k, c);
    } else if n > 1 {
      assert Factorial(n) == n * Factorial(n - 1);
    }
  }

  lemma Regroup(a: int, b: int, c: int)
    ensures a * (b * c) == b * (a * c)
  {
  }

  /** The demonstration: `factorial(5)` is 120. */
  lemma FactorialOfFive()
    ensures Factorial(5) == 120
  {
  }

  // ---------------------------------------------------------------
  // sum (and sumAll of 10-es6-features.js, which has the same body)

  /** `numbers.reduce((total, num) => total + num, 0)`: adds from the left. */
  function Sum(numbers: seq<int>): (r: int)
    ensures (forall i :: 0 <= i < |numbers| ==> numbers[i] >= 0) ==> r >= 0
    ensures |numbers| == 1 ==> r == numbers[0]
  {
    if numbers == [] then 0 else Sum(numbers[..|numbers| - 1]) + numbers[|numbers| - 1]
  }

  /** The same total added from the right, as a reference. */
  function SumFromRight(numbers: seq<int>): int
  {
    if numbers == [] then 0 else numbers[0] + SumFromRight(numbers[1..])
  }

  /** The sum of a concatenation is the sum of the parts. */
  lemma {:induction false} SumAppend(xs: seq<int>, ys: seq<int>)
    ensures Sum(xs + ys) == Sum(xs) + Sum(ys)
    decreases |ys|
  {
    if ys == [] {
      assert xs + ys == xs;
    } else {
      var init := ys[..|ys| - 1];
      assert (xs + ys)[..|xs + ys| - 1] == xs + init;
      SumAppend(xs, init);
    }
  }

  /** `sum(...numbers)` is the total of its arguments, whichever way they are
      added up; `sum()` is 0. */
  lemma {:induction false} SumIsTotal(numbers: seq<int>)
    ensures Sum(numbers) == SumFromRight(numbers)
    decreases |numbers|
  {
    if numbers != [] {
      SumAppend([numbers[0]], numbers[1..]);
      assert [numbers[0]] + numbers[1..] == numbers;
      assert Sum([numbers[0]]) == numbers[0] by {
        assert [numbers[0]][..0] == [];
      }
      SumIsTotal(numbers[1..]);
    }
  }

  // ---------------------------------------------------------------
  // createMultiplier

  /** `createMultiplier(factor)`: the function `x => x * factor`. */
  function CreateMultiplier(factor: int): (multiplier: int -> int)
    ensures multiplier(0) == 0 && multiplier(1) == factor && multiplier(-1) == -factor
  {
    x => x * factor
  }

  /** Applying two multipliers is applying the multiplier of their product. */
  lemma MultipliersCompose(a: int, b: int, x: int)
    ensures CreateMultiplier(a)(CreateMultiplier(b)(x)) == CreateMultiplier(a * b)(x)
    ensures CreateMultiplier(a)(x) == x * a
  {
    assert x * b * a == x * (a * b);
  }

  // ---------------------------------------------------------------
  // memoize (truthiness-tested cache)

  /** The function `memoize(fn)` returns. Its cache is a plain object tested
      with `if (cache[key])`, so a falsy cached value counts as missing. */
  class TruthyMemo<K(==)> {
    const fn: K -> JsValue
    var cache: map<K, JsValue>

    ghost predicate Valid()
      reads this
    {
      forall k :: k in cache ==> cache[k] == fn(k)
    }

    constructor (fn: K -> JsValue)
      ensures Valid() && this.fn == fn && cache == map[]
    {
      this.fn := fn;
      cache := map[];
    }

    /** One call: always `fn(key)`; served from the cache only when a truthy
        value is cached, otherwise `fn` runs and its result is stored. */
    method Call(key: K) returns (r: JsValue, computed: bool)
      requires Valid()
      modifies this
      ensures Valid()
      ensures r == fn(key)
      ensures computed <==> !(key in old(cache) && Truthy(old(cache)[key]))
      ensures computed ==> cache == old(cache)[key := r]
      ensures !computed ==> cache == old(cache)
    {
      if key in cache && Truthy(cache[key]) {
        return cache[key], false;
      }
      r := fn(key);
      cache := cache[key := r];
      computed := true;
    }
  }

  /** A falsy result is recomputed on every call; a truthy one is computed once. */
  method RepeatedCall<K(==)>(memo: TruthyMemo<K>, key: K) returns (firstComputed: bool, secondComputed: bool)
    requires memo.Valid() && key !in memo.cache
    modifies memo
    ensures firstComputed
    ensures secondComputed <==> !Truthy(memo.fn(key))
  {
    var _, c1 := memo.Call(key);
    var _, c2 := memo.Call(key);
    firstComputed, secondComputed := c1, c2;
  }

  // ---------------------------------------------------------------
  // numberGenerator

  /** The generator object `numberGenerator()` returns: `yield num++`. */
  class CountingGenerator {
    var num: nat

    constructor ()
      ensures num == 0
    {
      num := 0;
    }

    /** `next()`: yields the current number and moves to the next. */
    method Next() returns (value: nat)
      modifies this
      ensures value == old(num) && num == old(num) + 1
    {
      value := num;
      num := num + 1;
    }
  }

  /** The demonstration: 0, 1, 2. */
  method CountingGeneratorDemo() returns (values: seq<nat>)
    ensures values == [0, 1, 2]
  {
    var gen := new CountingGenerator();
    var a := gen.Next();
    var b := gen.Next();
    var c := gen.Next();
    values := [a, b, c];
  }

  // ---------------------------------------------------------------
  // createGreeting

  const DefaultGreeting := "Hello"

  /** `createGreeting(name, greeting = "Hello")`: "<greeting>, <name>!". */
  function CreateGreeting(name: string, greeting: Option<string>): (s: string)
    ensures greeting.None? ==> s == DefaultGreeting + ", " + name + "!"
    ensures greeting.Some? ==> s == greeting.value + ", " + name + "!"
  {
    var g := if greeting.Some? then greeting.value else DefaultGreeting;
    g + ", " + name + "!"
  }

  /** Leaving the greeting out is the same as passing "Hello". */
  lemma DefaultGreetingIsHello(name: string)
    ensures CreateGreeting(name, None) == CreateGreeting(name, Some("Hello"))
    ensures CreateGreeting("Bob", None) == "Hello, Bob!"
  {
  }
}

=== FILE: js_core.dfy ===
/** Values and helpers shared by the models of the scripts: the JavaScript
    values the scripts pass around, truthiness, `Error` objects, the outcome
    of invoking a caller-supplied operation, and decimal formatting of
    numbers inside template literals. */
module JsCore {

  datatype Option<T> = None | Some(value: T)

  datatype Result<T, E> = Ok(value: T) | Err(error: E)

  /** An `Error` object as far as the scripts look at it: its `name`
      ("Error", "TypeError", "ValidationError") and its `message`. */
  datatype ErrorValue = ErrorValue(name: string, message: string)

  /** `new Error(message)`. */
  function MakeError(message: string): (e: ErrorValue)
    ensures e.name == "Error" && e.message == message
  {
    ErrorValue("Error", message)
  }

  /** What one invocation of a caller-supplied (possibly asynchronous)
      operation does: resolve with a value or throw / reject with an error. */
  datatype Outcome<T> = Success(value: T) | Failure(error: ErrorValue)

  /** A caller-supplied operation invoked again and again: `op(i)` is the
      outcome of its `i`-th invocation (counting from 0). */
  type Operation<T> = nat -> Outcome<T>

  /** JavaScript values. Numbers are integers in this model. */
  datatype JsValue = Undefined | Null | Bool(b: bool) | Num(n: int) | Str(s: string)

  /** JavaScript truthiness: `undefined`, `null`, `false`, `0` and `""` are falsy. */
  predicate Truthy(v: JsValue)
  {
    match v
    case Undefined => false
    case Null => false
    case Bool(b) => b
    case Num(n) => n != 0
    case Str(s) => s != ""
  }

  /** Index of the first successful invocation among the first `n`
      invocations of `op`, or `n` when all of them fail. */
  function FirstSuccess<T>(op: Operation<T>, n: nat): (k: nat)
    ensures k <= n
    ensures k < n ==> op(k).Success?
    ensures forall j :: 0 <= j < k ==> op(j).Failure?
  {
    if n == 0 then 0
    else
      var k := FirstSuccess(op, n - 1);
      if k < n - 1 then k
      else if op(n - 1).Success? then n - 1
      else n
  }

  /** The three facts FirstSuccess promises determine it: an index with a
      success and only failures before it is the first success. */
  lemma FirstSuccessUnique<T>(op: Operation<T>, n: nat, i: nat)
    requires i <= n
    requires i < n ==> op(i).Success?
    requires forall j :: 0 <= j < i ==> op(j).Failure?
    ensures FirstSuccess(op, n) == i
  {
  }

  predicate IsDigit(c: char)
  {
    '0' <= c <= '9'
  }

  function DigitChar(d: nat): (c: char)
    requires d < 10
    ensures IsDigit(c) && c as int - '0' as int == d
  {
    ('0' as int + d) as char
  }

  /** Decimal digits of a non-negative number, as `${n}` writes them. */
  function NatToString(n: nat): (s: string)
    ensures |s| >= 1
    ensures forall i :: 0 <= i < |s| ==> IsDigit(s[i])
    ensures s[0] == '0' ==> n == 0
    decreases n
  {
    if n < 10 then [DigitChar(n)] else NatToString(n / 10) + [DigitChar(n % 10)]
  }

  /** Reads back a string of decimal digits. */
  function DigitsValue(s: string): nat
    requires forall i :: 0 <= i < |s| ==> IsDigit(s[i])
  {
    if s == [] then 0
    else
      assert IsDigit(s[|s| - 1]);
      var rest: nat := DigitsValue(s[..|s| - 1]);
      rest * 10 + (s[|s| - 1] as int - '0' as int)
  }

  /** Formatting a number and reading it back gives the number. */
  lemma {:induction false} NatToStringRoundTrip(n: nat)
    ensures DigitsValue(NatToString(n)) == n
    decreases n
  {
    if n >= 10 {
      var s := NatToString(n);
      assert s[..|s| - 1] == NatToString(n / 10);
      NatToStringRoundTrip(n / 10);
    }
  }

  /** `${i}` for an integer number: a minus sign before the digits of a negative one. */
  function IntToString(i: int): (s: string)
    ensures |s| >= 1
    ensures i >= 0 ==> forall k :: 0 <= k < |s| ==> IsDigit(s[k])
    ensures i < 0 ==> s[0] == '-' && s[1..] == NatToString(-i)
    ensures i >= 0 ==> s == NatToString(i)
  {
    if i < 0 then "-" + NatToString(-i) else NatToString(i)
  }

  /** `${v}` in a template literal. */
  function ToText(v: JsValue): (s: string)
    ensures v.Str? ==> s == v.s
    ensures v.Num? ==> s == IntToString(v.n)
  {
    match v
    case Undefined => "undefined"
    case Null => "null"
    case Bool(b) => if b then "true" else "false"
    case Num(n) => IntToString(n)
    case Str(s) => s
  }
}

=== FILE: objects_arrays.dfy ===
/** 04-objects-arrays.js: the `fullName` accessor pair of the `user` object,
    `Person.prototype.getFullName` and `Car`'s `getInfo` (the same template
    as `OldCar.prototype.getInfo` in 05-classes.js). */
module ObjectsArrays {
  import opened JsCore

  // ---------------------------------------------------------------
  // String.prototype.split(" ") and its inverse

  /** `s.split(" ")`: the pieces between single spaces, empty pieces
      included; a string without a space is one piece. */
  function Split(s: string): (parts: seq<string>)
    ensures |parts| >= 1
    ensures |parts| == 1 <==> ' ' !in s
    decreases |s|
  {
    if s == [] then [""]
    else if s[0] == ' ' then [""] + Split(s[1..])
    else
      var rest := Split(s[1..]);
      [[s[0]] + rest[0]] + rest[1..]
  }

  /** `parts.join(" ")`. */
  function Join(parts: seq<string>): string
    requires |parts| >= 1
    decreases |parts|
  {
    if |parts| == 1 then parts[0] else parts[0] + " " + Join(parts[1..])
  }

  /** No piece holds a space. */
  lemma {:induction false} SplitPiecesHaveNoSpace(s: string)
    ensures forall i :: 0 <= i < |Split(s)| ==> ' ' !in Split(s)[i]
    decreases |s|
  {
    if s != [] {
      SplitPiecesHaveNoSpace(s[1..]);
      var rest := Split(s[1..]);
      if s[0] != ' ' {
        assert ' ' !in rest[0];
        assert forall i :: 1 <= i < |Split(s)| ==> Split(s)[i] == rest[i];
      } else {
        assert forall i :: 1 <= i < |Split(s)| ==> Split(s)[i] == rest[i - 1];
      }
    }
  }

  /** Joining the pieces with single spaces gives back the string. */
  lemma {:induction false} JoinSplit(s: string)
    ensures Join(Split(s)) == s
    decreases |s|
  {
    if s != [] {
      JoinSplit(s[1..]);
      var rest := Split(s[1..]);
      if s[0] == ' ' {
        assert Split(s) == [""] + rest;
        calc {
          Join(Split(s));
          "" + " " + Join(rest);
          [s[0]] + s[1..];
          s;
        }
      } else {
        var first := [s[0]] + rest[0];
        assert Split(s) == [first] + rest[1..];
        if |rest| == 1 {
          calc {
            Join(Split(s));
            first;
            [s[0]] + Join(rest);
            s;
          }
        } else {
          calc {
            Join(Split(s));
            { assert ([first] + rest[1..])[1..] == rest[1..]; }
            first + " " + Join(rest[1..]);
            [s[0]] + (rest[0] + " " + Join(rest[1..]));
            [s[0]] + Join(rest);
            s;
          }
        }
      }
    }
  }

  /** Splitting a join of space-free pieces gives the pieces back. */
  lemma {:induction false} SplitJoin(parts: seq<string>)
    requires |parts| >= 1
    requires forall i :: 0 <= i < |parts| ==> ' ' !in parts[i]
    ensures Split(Join(parts)) == parts
    decreases |parts|
  {
    if |parts| == 1 {
      SplitNoSpace(parts[0]);
    } else {
      SplitJoin(parts[1..]);
      SplitWordThenSpace(parts[0], Join(parts[1..]));
      assert [parts[0]] + parts[1..] == parts;
    }
  }

  /** A string without a space splits into itself. */
  lemma {:induction false} SplitNoSpace(w: string)
    requires ' ' !in w
    ensures Split(w) == [w]
    decreases |w|
  {
    if w != [] {
      SplitNoSpace(w[1..]);
      assert [w[0]] + w[1..] == w;
    }
  }

  /** A space-free word followed by a space and a tail splits into the word
      followed by the pieces of the tail. */
  lemma {:induction false} SplitWordThenSpace(w: string, tail: string)
    requires ' ' !in w
    ensures Split(w + " " + tail) == [w] + Split(tail)
    decreases |w|
  {
    if w == [] {
      assert w + " " + tail == [' '] + tail;
      assert (w + " " + tail)[1..] == tail;
    } else {
      SplitWordThenSpace(w[1..], tail);
      assert (w + " " + tail)[1..] == w[1..] + " " + tail;
      assert [w[0]] + w[1..] == w;
    }
  }

  // ---------------------------------------------------------------
  // the fullName accessor pair

  /** `${first} ${last}`: the fullName getter, `person.fullName()` and
      `Person.prototype.getFullName`. */
  function FullNameOf(first: string, last: string): string
  {
    first + " " + last
  }

  /** What the setter stores: the first piece of `name.split(" ")` and the
      second piece, or "" when there is none. */
  function ParseFullName(name: string): (names: (string, string))
    ensures names.0 == Split(name)[0]
    ensures names.1 == if |Split(name)| >= 2 then Split(name)[1] else ""
  {
    var parts := Split(name);
    (parts[0], if |parts| >= 2 then parts[1] else "")
  }

  /** The first name is the text up to the first space, or the whole name
      when it has none. */
  lemma {:induction false} FirstNameBeforeFirstSpace(name: string)
    ensures ' ' !in name ==> ParseFullName(name) == (name, "")
    ensures forall i :: 0 <= i < |name| && name[i] == ' ' && ' ' !in name[..i] ==>
              ParseFullName(name).0 == name[..i]
  {
    if ' ' !in name {
      SplitNoSpace(name);
    }
    forall i | 0 <= i < |name| && name[i] == ' ' && ' ' !in name[..i]
      ensures ParseFullName(name).0 == name[..i]
    {
      SplitWordThenSpace(name[..i], name[i + 1..]);
      assert name[..i] + " " + name[i + 1..] == name;
    }
  }

  /** A first and last name without spaces survive the setter; whatever
      follows a second space is dropped. */
  lemma ParseFullNameRoundTrip(first: string, last: string, rest: string)
    requires ' ' !in first && ' ' !in last
    ensures ParseFullName(FullNameOf(first, last)) == (first, last)
    ensures ParseFullName(FullNameOf(first, last) + " " + rest) == (first, last)
  {
    var tail := last + " " + rest;
    calc {
      Split(FullNameOf(first, last));
      { SplitWordThenSpace(first, last); }
      [first] + Split(last);
      { SplitNoSpace(last); }
      [first, last];
    }
    calc {
      Split(FullNameOf(first, last) + " " + rest);
      { assert FullNameOf(first, last) + " " + rest == first + " " + tail; }
      Split(first + " " + tail);
      { SplitWordThenSpace(first, tail); }
      [first] + Split(tail);
      { SplitWordThenSpace(last, rest); }
      [first] + ([last] + Split(rest));
    }
  }

  /** The `user` object with its `_firstName` and `_lastName` fields. */
  class User {
    var firstName: string
    var lastName: string

    /** The object literal: both fields empty. */
    constructor ()
      ensures firstName == "" && lastName == ""
    {
      firstName := "";
      lastName := "";
    }

    /** `get fullName()`. */
    function FullName(): (r: string)
      reads this
      ensures |r| == |firstName| + 1 + |lastName|
      ensures r[..|firstName|] == firstName && r[|firstName|] == ' '
      ensures r[|firstName| + 1..] == lastName
    {
      FullNameOf(firstName, lastName)
    }

    /** `set fullName(name)`. */
    method SetFullName(name: string)
      modifies this
      ensures (firstName, lastName) == ParseFullName(name)
    {
      var parts := Split(name);
      firstName := parts[0];
      lastName := if |parts| >= 2 && parts[1] != "" then parts[1] else "";
    }
  }

  /** `user.fullName = "John Doe"` then `user.fullName` reads "John Doe";
      any name with exactly one space round-trips the same way. */
  method SetThenGet(first: string, last: string) returns (fullName: string)
    requires ' ' !in first && ' ' !in last
    ensures fullName == first + " " + last
  {
    var user := new User();
    user.SetFullName(FullNameOf(first, last));
    ParseFullNameRoundTrip(first, last, "");
    fullName := user.FullName();
  }

  // ---------------------------------------------------------------
  // Person and Car

  /** An instance built by `new Person(firstName, lastName)`. */
  datatype Person = Person(firstName: string, lastName: string)

  /** `Person.prototype.getFullName`. */
  function GetFullName(p: Person): (r: string)
    ensures |r| == |p.firstName| + 1 + |p.lastName|
    ensures r[..|p.firstName|] == p.firstName && r[|p.firstName|] == ' '
    ensures r[|p.firstName| + 1..] == p.lastName
  {
    FullNameOf(p.firstName, p.lastName)
  }

  /** An instance built by `new Car(brand, model, year)`. */
  datatype Car = Car(brand: string, model: string, year: int)

  /** `getInfo()`: `${year} ${brand} ${model}`. */
  function GetInfo(c: Car): (r: string)
    ensures |r| == |IntToString(c.year)| + 1 + |c.brand| + 1 + |c.model|
    ensures r[..|IntToString(c.year)|] == IntToString(c.year)
    ensures r[|IntToString(c.year)|] == ' '
    ensures var y := IntToString(c.year);
            r[|y| + 1..|y| + 1 + |c.brand|] == c.brand && r[|y| + 1 + |c.brand|] == ' '
    ensures r[|r| - |c.model|..] == c.model
  {
    IntToString(c.year) + " " + c.brand + " " + c.model
  }

  /** The full name splits back into the person's two names when neither
      holds a space. */
  lemma GetFullNameSplits(p: Person)
    requires ' ' !in p.firstName && ' ' !in p.lastName
    ensures Split(GetFullName(p)) == [p.firstName, p.lastName]
  {
    SplitWordThenSpace(p.firstName, p.lastName);
    SplitNoSpace(p.lastName);
  }

  /** The description splits back into year, brand and model when brand and
      model hold no space. */
  lemma GetInfoSplits(c: Car)
    requires ' ' !in c.brand && ' ' !in c.model
    ensures Split(GetInfo(c)) == [IntToString(c.year), c.brand, c.model]
  {
    var y := IntToString(c.year);
    assert ' ' !in y by {
      if c.year >= 0 {
        assert forall k :: 0 <= k < |y| ==> IsDigit(y[k]);
      } else {
        assert forall k :: 0 <= k < |y[1..]| ==> IsDigit(y[1..][k]);
        assert y == [y[0]] + y[1..];
      }
    }
    assert GetInfo(c) == y + " " + (c.brand + " " + c.model);
    SplitWordThenSpace(y, c.brand + " " + c.model);
    SplitWordThenSpace(c.brand, c.model);
    SplitNoSpace(c.model);
  }
}
